=== FILE: README.md ===
# BaseObjectManager and the world-save flag, modelled in Dafny

This project models the core of SEModAPIInternal, a server-extension API for a
game host. There are two parts.

- **BaseObjectManager** is the keyed collection of game objects (a
  `Dictionary<long, BaseObject>`) behind every entity manager. The model covers:
  - its IsMutable and m_changed flags and the Changed property;
  - loading, inserting, deleting and typed reads;
  - the CanRefresh gate;
  - the Refresh time gate, with its adaptive interval driven by process-wide refresh counters;
  - RefreshData, which refills a raw HashSet or List staging container on the main game thread;
  - Save, which writes the object builders out.
- **WorldManager** contributes its world-save side:
  - the `m_isSaving` flag across SaveWorld, AsynchronousSaveWorld and InternalSaveWorld;
  - the reflective lookup of the host save lock;
  - the WorldSaved event;
  - the asynchronous save task's two-phase poll of the save lock.

Modules:

| module | file | contents |
|---|---|---|
| `Wrappers` | wrappers.dfy | `Option` and `Result`, standing in for null and thrown exceptions |
| `Sequences` | sequences.dfy | `Init`, `Last` and an order-preserving `Filter` |
| `Host` | host.dfy | the save lock's `Owned` flag and the actions queued on the main thread |
| `EntityStore` | entity_store.dfy | the keyed store and its operations |
| `RefreshScheduler` | refresh_scheduler.dfy | CanRefresh, the refresh counters and the interval formula |
| `Staging` | staging.dfy | the two staging passes, both corrected and as written |
| `ObjectManager` | object_manager.dfy | one whole manager: construction, Refresh, RefreshData, typed reads, Save, and how they interact with `WorldSave` |
| `WorldSave` | world_save.dfy | the WorldManager save logic |

How things are represented:

- **The store.** It is the sequence of its entries in enumeration order. `ToMap` gives the keyed view.
- **Exceptions.**
  - `Dictionary.Add` on a taken key is `Failure(DuplicateKey(k))`.
  - A `null` return is `None`.
  - The exception Save throws is `SaveOutcome.Invalid`.
  - An exception from the main-thread enqueue in Refresh is an `EnqueueOutcome` parameter. When it is `EnqueueThrew`, Refresh's result has `raised` set.
- **Time.** A clock reading is an integer number of milliseconds, passed in by the caller.
- **The poll.** The save task's poll runs over a finite trace of `(time, Owned)` reads. `Poll` is checked against an independent declarative reading of the same trace (`Completes`, `TimesOut`).
- **Threads.** They appear only as the queue of actions marshalled to the main thread. A manager's `RefreshData` is a separate step, taken later against whatever the host looks like then.

Where the code and its documentation disagree, the model follows the code:

- **The adaptive interval.** `(typeCount / total) * 850 + 250` is computed in `int`, so it is 1100 while only one class has ever refreshed and 250 from then on. It is never proportional (`RefreshScheduler.IntervalSettlesAtBase`).
- **Save's return value.** Save reports true even when the write fails. WriteSpaceEngineersFile catches every error and returns false, and SaveContentFile ignores that value. The ConfigFileCorrupted exception is therefore never raised from Save.
- **Save and m_changed.** Save does not clear m_changed, so a second Save writes again.
- **Load.** Load neither sets m_changed nor consults IsMutable (`EntityStore.LoadChanged`).
- **Key reuse.** NewEntry keys by `Count`. After a deletion it can hand out a key that was used before (`EntityStore.NewEntryReusesDeletedKey`), or collide and throw (`EntityStore.NewEntryCollidesAfterDelete`).
- **Deleting by object.** `DeleteEntry(BaseObject)` always returns false. `DeleteEntries(List<T>)` returns true whenever the manager is mutable.
- **AsynchronousSaveWorld.** It clears `m_isSaving` in its `finally` right after starting the save task, so it does not single-flight: two calls start two tasks (`WorldSave.AsynchronousSaveWorldTwiceStartsTwoTasks`).
- **A failed SaveWorld.** SaveWorld sets `m_isSaving` before marshalling InternalSaveWorld and has no `finally`. If the marshalling call throws, the flag stays set: every later SaveWorld and AsynchronousSaveWorld is dropped and no manager refreshes again (`WorldSave.FailedInvokeDropsEveryLaterRequest`, `ObjectManager.FailedInvokeStopsRefresh`).
- **Event order.** InternalSaveWorld adds the sector-saved event before raising WorldSaved. The asynchronous task raises WorldSaved first.

## Model

| member | source | states |
|---|---|---|
| `EntityStore.GetEntry` | SEModAPIInternal/API/Entity/BaseObjectManager.cs:614-620 | null exactly when the key is absent; otherwise the entity stored under that key |
| `EntityStore.TypedValues` | SEModAPIInternal/API/Entity/BaseObjectManager.cs:628-635 | the typed copy holds exactly the stored values of the requested classes and is no longer than the store |
| `EntityStore.TypedValuesKeepOrder` | SEModAPIInternal/API/Entity/BaseObjectManager.cs:629-635 | the typed copy keeps enumeration order (it distributes over concatenation) |
| `EntityStore.TypedValuesOfCommonBase` | SEModAPIInternal/API/Entity/BaseObjectManager.cs:629-635 | asking for a class every value belongs to copies all values in order |
| `EntityStore.Load` | SEModAPIInternal/API/Entity/BaseObjectManager.cs:762-770 | prior entries are discarded; source element i is stored under key i; keys are exactly 0..n-1; values come back in source order; the flags are untouched |
| `EntityStore.LoadChanged` | SEModAPIInternal/API/Entity/BaseObjectManager.cs:762-770 | after Load, Changed holds iff m_changed was already set or a loaded entity is itself changed |
| `EntityStore.NewEntry` | SEModAPIInternal/API/Entity/BaseObjectManager.cs:656-665 | immutable: returns null and changes nothing; key Count taken: throws; otherwise appends the entity under key Count after the existing entries, grows by one and marks changed |
| `EntityStore.NewEntryOnDenseStore` | SEModAPIInternal/API/Entity/BaseObjectManager.cs:656-665 | on a store keyed 0..n-1, NewEntry succeeds and the keys stay 0..n |
| `EntityStore.NewEntryCollidesAfterDelete` | SEModAPIInternal/API/Entity/BaseObjectManager.cs:661 | deleting any key but the last from a dense store makes the next NewEntry throw on key Count |
| `EntityStore.NewEntryReusesDeletedKey` | SEModAPIInternal/API/Entity/BaseObjectManager.cs:661 | deleting the last key and inserting again hands out the deleted key |
| `EntityStore.AddEntry` | SEModAPIInternal/API/Entity/BaseObjectManager.cs:690-696 | immutable: no effect; taken key: throws; otherwise the keyed view gains exactly (key, entity), the entry is appended after the existing ones, and the store is marked changed |
| `EntityStore.MutationsMarkChanged` | SEModAPIInternal/API/Entity/BaseObjectManager.cs:155-166 | every successful insertion or deletion leaves Changed true |
| `EntityStore.Without` | SEModAPIInternal/API/Entity/BaseObjectManager.cs:709 | Dictionary.Remove: the keyed view loses exactly that key, and uniqueness is kept |
| `EntityStore.WithoutKeepsOrder` | SEModAPIInternal/API/Entity/BaseObjectManager.cs:709 | the entries that survive a removal keep their enumeration order: the result is the order-preserving filter of the entries by key |
| `EntityStore.DeleteEntry` | SEModAPIInternal/API/Entity/BaseObjectManager.cs:702-716 | true iff mutable and the key is present; then only that key goes, its entity is disposed, Count drops by one and the store is marked changed; otherwise nothing changes |
| `EntityStore.FirstIndexOf` | SEModAPIInternal/API/Entity/BaseObjectManager.cs:722-729 | the first position in enumeration order whose value equals the argument, or none if no value does |
| `EntityStore.DeleteEntryByValue` | SEModAPIInternal/API/Entity/BaseObjectManager.cs:718-732 | always returns false; when mutable, removes the key of the first equal value and disposes it; otherwise nothing changes; m_changed ends set exactly when it was set or an entity was disposed |
| `EntityStore.DeleteEachValue` | SEModAPIInternal/API/Entity/BaseObjectManager.cs:738-741 | the per-victim deletions only ever remove keys whose value is listed, keep every other key with its value, and dispose only listed entities; m_changed ends set exactly when it was set or something was disposed |
| `EntityStore.DeleteEntriesByValue` | SEModAPIInternal/API/Entity/BaseObjectManager.cs:734-744 | returns exactly IsMutable; removes only listed entities; immutable leaves the store as it was; m_changed ends set exactly when it was set or something was disposed |
| `EntityStore.DeleteEntriesByValueRemovesAll` | SEModAPIInternal/API/Entity/BaseObjectManager.cs:734-744 | when no entity is stored twice, no listed entity is left afterwards |
| `EntityStore.DeleteEachKey` | SEModAPIInternal/API/Entity/BaseObjectManager.cs:750-753 | the keyed view loses exactly the listed keys, and changed is set iff some listed key was present |
| `EntityStore.DeleteEntriesByKey` | SEModAPIInternal/API/Entity/BaseObjectManager.cs:746-756 | returns exactly IsMutable; when mutable the keyed view loses exactly the listed keys; m_changed ends set exactly when it was set or, on a mutable store, some listed key was present |
| `EntityStore.MapSizeIsCount` | SEModAPIInternal/API/Entity/BaseObjectManager.cs:216-219 | Count equals the number of distinct keys |
| `RefreshScheduler.CanRefresh` | SEModAPIInternal/API/Entity/BaseObjectManager.cs:191-213 | true iff dynamic, mutable, the main and staging locks free, the game started, no world save in flight, and a host save lock that exists and is not owned |
| `RefreshScheduler.RecordDispatch` | SEModAPIInternal/API/Entity/BaseObjectManager.cs:298-303 | the global count and this class's count grow by one; every other class's count is unchanged |
| `RefreshScheduler.RecordDispatchTracks` | SEModAPIInternal/API/Entity/BaseObjectManager.cs:298-303 | the counters keep agreeing with the history of dispatches |
| `RefreshScheduler.TypeCountAtMostTotal` | SEModAPIInternal/API/Entity/BaseObjectManager.cs:298-303 | a class's count never exceeds the global count, and equals it iff every dispatch came from that class |
| `RefreshScheduler.PerTypeCountsSumToTotal` | SEModAPIInternal/API/Entity/BaseObjectManager.cs:298-303 | the per-class counts add up to the global count |
| `RefreshScheduler.NextInterval` | SEModAPIInternal/API/Entity/BaseObjectManager.cs:307 | the interval is at least 250; it is 1100 when the counts are equal and 250 when the class's count is smaller |
| `RefreshScheduler.Dispatch` | SEModAPIInternal/API/Entity/BaseObjectManager.cs:290-307 | the load time becomes now, the counters record the dispatch, and the new interval is 1100 iff this class made every dispatch and 250 otherwise |
| `RefreshScheduler.DispatchInterval` | SEModAPIInternal/API/Entity/BaseObjectManager.cs:298-307 | with counters that follow the history, the interval lies in [250, 1100] and is 1100 iff every earlier dispatch came from this class |
| `RefreshScheduler.IntervalSettlesAtBase` | SEModAPIInternal/API/Entity/BaseObjectManager.cs:307 | once any other class has dispatched, this class's interval is 250 for good |
| `Staging.AddAdmitted` | SEModAPIInternal/API/Entity/BaseObjectManager.cs:391-398 | the set holds exactly what it held plus the admitted raw items |
| `Staging.RefreshHashSet` | SEModAPIInternal/API/Entity/BaseObjectManager.cs:370-407 | when the pass may run and the backing object and raw value exist, the set becomes exactly the admitted items; otherwise it is unchanged |
| `Staging.RefreshList` | SEModAPIInternal/API/Entity/BaseObjectManager.cs:410-447 | the list version: exactly the admitted items, no longer than the raw collection; otherwise unchanged |
| `Staging.RefreshListKeepsOrder` | SEModAPIInternal/API/Entity/BaseObjectManager.cs:431-438 | the list pass keeps enumeration order |
| `Staging.RefreshListAdmittingAll` | SEModAPIInternal/API/Entity/BaseObjectManager.cs:253-256 | with the default IsValidEntity the list pass copies the raw collection |
| `Staging.RefreshHashSetAsWritten` | SEModAPIInternal/API/Entity/BaseObjectManager.cs:370-407 | the set agrees with the corrected pass, but the exclusive lock is still held on return iff the pass ran and the backing object or raw value was null |
| `Staging.RefreshListAsWritten` | SEModAPIInternal/API/Entity/BaseObjectManager.cs:410-447 | the same for the list pass |
| `ObjectManager.NewDynamic` | SEModAPIInternal/API/Entity/BaseObjectManager.cs:97-121 | a new backing-source manager is empty, clean, mutable and dynamic, with free locks and no file, stamped now with interval 250 |
| `ObjectManager.NewLoaded` | SEModAPIInternal/API/Entity/BaseObjectManager.cs:123-143 | a manager built from entities holds them under keys 0..n-1, is not dynamic, has m_changed unset and has no file |
| `ObjectManager.FirstRefreshWaitsForInterval` | SEModAPIInternal/API/Entity/BaseObjectManager.cs:110-120 | a new dynamic manager dispatches iff at least 250 ms have passed since construction and CanRefresh holds |
| `ObjectManager.LoadedManagerIsStatic` | SEModAPIInternal/API/Entity/BaseObjectManager.cs:123-143 | as constructed, a manager built from entities is static with no file, so it neither dispatches a refresh nor saves |
| `ObjectManager.Refresh` | SEModAPIInternal/API/Entity/BaseObjectManager.cs:284-307 | the load time is stamped iff CanRefresh holds and the interval has elapsed. Then, when the enqueue succeeds, exactly one RefreshData is queued and the counters and schedule are exactly what `RefreshScheduler.RecordDispatch` and `RefreshScheduler.Dispatch` give, so the interval is at least 250. When the enqueue throws, only the stamp remains and Refresh raises. Otherwise nothing changes |
| `ObjectManager.FailedEnqueuePostponesRefresh` | SEModAPIInternal/API/Entity/BaseObjectManager.cs:292-296 | after an enqueue that throws, nothing is queued and no counter moves, yet every Refresh within the old interval is refused |
| `ObjectManager.RefreshTwiceWithinInterval` | SEModAPIInternal/API/Entity/BaseObjectManager.cs:289-292 | after a dispatch, a Refresh less than 250 ms later is refused, and one 1100 ms or more later is dispatched while CanRefresh holds and its enqueue succeeds |
| `ObjectManager.RefreshData` | SEModAPIInternal/API/Entity/BaseObjectManager.cs:310-363 | only the backing type's staging container changes: it is exactly what the staging pass `Staging.RefreshHashSet` or `Staging.RefreshList` gives, so a list holds the admitted raw items in fetch order; when CanRefresh fails or no data is available the manager is unchanged |
| `ObjectManager.RefreshDataAsWritten` | SEModAPIInternal/API/Entity/BaseObjectManager.cs:310-335 | the main thread blocks iff CanRefresh holds, the backing is HashSet or List, and the backing object or raw value is null; otherwise it agrees with RefreshData |
| `ObjectManager.NullBackingObjectBlocksMainThread` | SEModAPIInternal/API/Entity/BaseObjectManager.cs:377-380 | with a null backing object the first RefreshData hangs, and afterwards no Refresh even stamps the load time |
| `ObjectManager.RefreshDataKeepsRefreshing` | SEModAPIInternal/API/Entity/BaseObjectManager.cs:337-345 | with every lock released, RefreshData leaves CanRefresh and the schedule as they were, so the next due Refresh is dispatched |
| `ObjectManager.GetTypedInternalData` | SEModAPIInternal/API/Entity/BaseObjectManager.cs:622-650 | the read's step is exactly `ObjectManager.Refresh`; it returns the stored values of the requested classes in enumeration order, with repeats kept (`EntityStore.TypedValues`), or an empty list when that Refresh throws |
| `ObjectManager.Builders` | SEModAPIInternal/API/Entity/BaseObjectManager.cs:792-796 | one object builder per value, in enumeration order |
| `ObjectManager.Save` | SEModAPIInternal/API/Entity/BaseObjectManager.cs:781-805 | nothing is written iff nothing changed, the manager is immutable or no file is set; it throws iff it would write but the container field is missing; otherwise it writes every value's builder in enumeration order |
| `ObjectManager.SaveAfterLoad` | SEModAPIInternal/API/Entity/BaseObjectManager.cs:781-805 | after Load, Save writes the source's builders in order when something is dirty, and nothing when the manager and the loaded entities are clean |
| `ObjectManager.SyncSaveSuspendsRefresh` | SEModAPIInternal/API/Entity/BaseObjectManager.cs:205-206 | once SaveWorld has set the flag, whether or not its marshalling call threw, no Refresh stamps or dispatches; after InternalSaveWorld the flag no longer blocks it |
| `ObjectManager.FailedInvokeStopsRefresh` | SEModAPIInternal/API/Common/WorldManager.cs:252-253 | after SaveWorld's marshalling call throws, no Refresh stamps or dispatches again, whatever save requests follow |
| `ObjectManager.LockLookupFailureBlocksRefresh` | SEModAPIInternal/API/Entity/BaseObjectManager.cs:207-210 | when the save-lock lookup fails, no Refresh stamps or dispatches |
| `WorldSave.InternalGetResourceLock` | SEModAPIInternal/API/Common/WorldManager.cs:431-445 | null whenever the lookup throws; otherwise whatever the field holds |
| `WorldSave.Notifications` | SEModAPIInternal/API/Common/WorldManager.cs:493-499 | one notification per registered handler, in registration order |
| `WorldSave.OnWorldSaved` | SEModAPIInternal/API/Common/WorldManager.cs:493-499 | no handlers: no effect; otherwise each handler runs once, in order, and nothing else changes |
| `WorldSave.SaveWorld` | SEModAPIInternal/API/Common/WorldManager.cs:247-254 | dropped while a save is in flight; otherwise sets the flag and queues exactly one InternalSaveWorld, or queues nothing when the marshalling call throws, with the flag left set |
| `WorldSave.SaveWorldIsSingleFlight` | SEModAPIInternal/API/Common/WorldManager.cs:247-254 | a second SaveWorld while the first is pending changes nothing: one save is queued |
| `WorldSave.AsynchronousSaveWorld` | SEModAPIInternal/API/Common/WorldManager.cs:256-324 | dropped while a save is in flight; otherwise starts one task and returns with the flag clear |
| `WorldSave.AsynchronousSaveWorldTwiceStartsTwoTasks` | SEModAPIInternal/API/Common/WorldManager.cs:321-324 | two calls in a row start two save tasks |
| `WorldSave.InternalSaveWorld` | SEModAPIInternal/API/Common/WorldManager.cs:447-486 | the flag is clear on every exit; success adds the sector event and then notifies; failure only notifies; an exception does neither |
| `WorldSave.SaveWorldAcceptedAfterInternalSave` | SEModAPIInternal/API/Common/WorldManager.cs:482-485 | whatever InternalSaveWorld's outcome, the next SaveWorld is accepted |
| `WorldSave.FailedInvokeLeavesFlagSet` | SEModAPIInternal/API/Common/WorldManager.cs:247-262 | when the marshalling call throws, the flag stays set with no InternalSaveWorld queued, and the next SaveWorld or AsynchronousSaveWorld is dropped |
| `WorldSave.FailedInvokeDropsEveryLaterRequest` | SEModAPIInternal/API/Common/WorldManager.cs:247-262 | after that failure, no run of SaveWorld and AsynchronousSaveWorld calls changes the world again |
| `WorldSave.AwaitReleaseMeaning` | SEModAPIInternal/API/Common/WorldManager.cs:297-303 | the release phase completes iff a clear read comes before any over-bound Owned read, and times out iff the reverse; it never faults |
| `WorldSave.AwaitAcquireMeaning` | SEModAPIInternal/API/Common/WorldManager.cs:289-303 | from any read, the two phases complete or time out exactly as the declarative description says |
| `WorldSave.PollMeaning` | SEModAPIInternal/API/Common/WorldManager.cs:287-303 | the poll completes iff an Owned read arrives before any clear read taken more than 20000 ms after start, and a clear read then arrives before any Owned read taken more than 60000 ms after the same start; it times out iff one of those bounds is overrun first. The clock is consulted only after a read, so a clear read taken after 60000 ms still completes the poll |
| `WorldSave.RunSaveTask` | SEModAPIInternal/API/Common/WorldManager.cs:267-315 | the save task queues the snapshot start; on completion it notifies the handlers and then adds one sector event; otherwise there are no effects; the flag is never touched |
| `WorldSave.RunSaveTaskEmitsOneSectorEvent` | SEModAPIInternal/API/Common/WorldManager.cs:305-314 | the sector event is raised iff the poll completes, exactly once, after every handler |
| `WorldSave.QuickSaveCompletes` | SEModAPIInternal/API/Common/WorldManager.cs:289-303 | a lock taken at 5 ms and released at 40 ms completes |
| `WorldSave.UnstartedSaveTimesOut` | SEModAPIInternal/API/Common/WorldManager.cs:289-295 | a lock never taken is abandoned at the first clear read past 20000 ms |
| `WorldSave.BoundsShareTheStart` | SEModAPIInternal/API/Common/WorldManager.cs:297-303 | the release bound is measured from the same start as the acquire bound |

## Left out

- Reflection, XML serialization and file I/O are left out. Save's file write is represented by its payload (`SaveOutcome.Written`).
- Logging, profiling and the debug timing in RefreshData are left out. They have no effect on state.
- Threads are not modelled: no concurrent interleavings, no lock waiting other than the one deadlock the finding describes, and no Sleep(1). The main-thread queue is a sequence of actions, and actions run in whatever order the caller chooses.
- LoadDynamic is the base class's no-op. RefreshData therefore never changes the keyed store, and the subclasses that override it are not part of this model.
- SetBackingProperties, the file helpers (GetContentDataFile, LoadContentFile, ReadSpaceEngineersFile, Serialize and Deserialize) and the GetBackingData/GetObjectBuilderMap accessors are not modelled. They have no contract beyond their field accesses.
- The object-builder map lock is never taken exclusively in this core, so it only appears as a flag that CanRefresh reads.
- After a removal, .NET reuses freed dictionary slots, which changes the enumeration order of later insertions. The model appends new entries at the end instead.
- `Staging.RefreshHashSet`, `Staging.RefreshList` and `ObjectManager.RefreshData` treat an exception while enumerating the raw value as `InvokeFailed`: the pass leaves the container as it was. In the source, the container may already be cleared and partly refilled.
- `RefreshScheduler.NextInterval` does not model the 32-bit overflow of `m_staticRefreshCount` or of the per-class counts. Neither is reachable in a realistic run.
- `ObjectManager.Refresh` reads one clock value. The source reads DateTime.Now twice, fractional milliseconds included, and keeps the interval as a `double`.
- `ObjectManager.Refresh` looks up the save lock once. CanRefresh looks it up twice, and the two lookups can disagree.
- `ObjectManager.GetTypedInternalData` does not model waiting for a main lock that another thread holds. Of the exceptions its `catch` turns into an empty list, only the one from Refresh's enqueue is modelled.
- `EntityStore.DeleteEntry` records the disposed entity in `disposed`. What BaseObject.Dispose does is not part of this model.
- `ObjectManager.LoadedManagerIsStatic` speaks of a manager as constructed. The public setters FileInfo and IsDynamic and the method SetBackingProperties (SEModAPIInternal/API/Entity/BaseObjectManager.cs:169-179, 225-232) can later make it dynamic or give it a file; they are not modelled as operations.
- `WorldSave.OnWorldSaved` does not model a handler that throws. An exception from a handler would end InternalSaveWorld early (its `finally` still clears the flag) and would fault the asynchronous task.
- `WorldSave.RunSaveTask` receives the host save lock as a parameter instead of looking it up, and the snapshot start is represented only by its queued action.
- `WorldSave.AsynchronousSaveWorld` counts the save task as started in every case. The source swallows an exception from Task.Factory.StartNew in an empty catch, so a task that never started is not distinguished.
- The commented-out save path at WorldManager.cs:326-395 is not code and is not modelled.

## Findings

| source | as written | input that shows it | evidently intended | confidence | as-written member | corrected member |
|---|---|---|---|---|---|---|
| SEModAPIInternal/API/Entity/BaseObjectManager.cs:377-383 | After `AcquireExclusive`, InternalRefreshBackingDataHashSet returns from inside its `try` when the backing object or the raw value is null. Only the `catch` releases the lock, so the lock stays held. RefreshData then calls `AcquireShared` on the same non-reentrant lock and blocks the main game thread while it holds the main lock. The list pass at lines 417-423 has the same early returns. | A dynamic manager with HashSet or List backing, a null backing object, CanRefresh true and one dispatched Refresh | every exit of the pass releases the staging lock, so RefreshData completes and later refreshes go on | not executed | `ObjectManager.NullBackingObjectBlocksMainThread` | `ObjectManager.RefreshDataKeepsRefreshing` |

=== FILE: entity_store.dfy ===
/**
 * The clean keyed collection of a BaseObjectManager (its Dictionary<long,
 * BaseObject>) together with the manager's IsMutable and m_changed flags, and
 * the operations that load, insert, delete and read entries.
 *
 * The dictionary is kept as the sequence of its entries in enumeration order,
 * so that the operations that walk its `Values` (typed reads, Save, deletion
 * by value) can be stated with their order; `ToMap` is the keyed view.
 */
module EntityStore {
  import opened Wrappers
  import opened Sequences

  /** An object builder payload (MyObjectBuilder_Base), known only by identity. */
  datatype Builder = Builder(handle: nat)

  /** The runtime class of an entity. */
  type Kind = nat

  /** A BaseObject: its identity, runtime class, builder payload and own dirty flag. */
  datatype Entity = Entity(handle: nat, kind: Kind, builder: Builder, changed: bool)

  /** Dictionary keys are `long`s. */
  type Key = int

  datatype Entry = Entry(key: Key, value: Entity)

  datatype Store = Store(entries: seq<Entry>, mutable: bool, changed: bool)

  /** Dictionary.Add throws ArgumentException on a key that is already present. */
  datatype StoreError = DuplicateKey(key: Key)

  /** The keyed view of the entries (a later entry wins, which never matters in a valid store). */
  function ToMap(es: seq<Entry>): map<Key, Entity>
  {
    if |es| == 0 then map[] else ToMap(Init(es))[Last(es).key := Last(es).value]
  }

  /** No key occurs twice: the invariant the dictionary maintains. */
  predicate UniqueKeys(es: seq<Entry>)
  {
    |es| == 0 || (UniqueKeys(Init(es)) && Last(es).key !in ToMap(Init(es)))
  }

  predicate Valid(s: Store)
  {
    UniqueKeys(s.entries)
  }

  /** The Count property. */
  function Count(s: Store): nat
  {
    |s.entries|
  }

  /** The dictionary's `Values`, in enumeration order. */
  function Values(es: seq<Entry>): seq<Entity>
  {
    seq(|es|, i requires 0 <= i < |es| => es[i].value)
  }

  /** Keys are the dense range 0..Count-1, as right after a Load. */
  ghost predicate Dense(s: Store)
  {
    forall k :: k in ToMap(s.entries) <==> 0 <= k < Count(s)
  }

  /**
   * The Changed property: the manager's own flag, or any entry's flag.
   */
  predicate Changed(s: Store)
  {
    s.changed || exists i :: 0 <= i < |s.entries| && s.entries[i].value.changed
  }

  // ---------------------------------------------------------------------------
  // Facts about the keyed view

  lemma {:induction false} MapSizeIsCount(es: seq<Entry>)
    requires UniqueKeys(es)
    ensures |ToMap(es)| == |es|
  {
    if |es| > 0 {
      MapSizeIsCount(Init(es));
    }
  }

  /** In a valid store every entry is reachable through its key. */
  lemma {:induction false} EntryInMap(es: seq<Entry>, i: int)
    requires UniqueKeys(es) && 0 <= i < |es|
    ensures es[i].key in ToMap(es) && ToMap(es)[es[i].key] == es[i].value
  {
    if i < |es| - 1 {
      EntryInMap(Init(es), i);
      assert Init(es)[i] == es[i];
    }
  }

  /** Every key of the keyed view comes from an entry holding its value. */
  lemma {:induction false} MapKeyHasEntry(es: seq<Entry>, k: Key)
    requires k in ToMap(es)
    ensures exists i :: 0 <= i < |es| && es[i].key == k && es[i].value == ToMap(es)[k]
  {
    if Last(es).key != k {
      MapKeyHasEntry(Init(es), k);
      var i :| 0 <= i < |Init(es)| && Init(es)[i].key == k && Init(es)[i].value == ToMap(Init(es))[k];
      assert es[i] == Init(es)[i];
    } else {
      assert es[|es| - 1].key == k;
    }
  }

  // ---------------------------------------------------------------------------
  // Reads

  /** ContainsKey followed by the indexer: a scan that agrees with the keyed view. */
  function Lookup(es: seq<Entry>, k: Key): (r: Option<Entity>)
    ensures r.None? <==> k !in ToMap(es)
    ensures r.Some? ==> r.value == ToMap(es)[k]
  {
    if |es| == 0 then None
    else if Last(es).key == k then Some(Last(es).value)
    else Lookup(Init(es), k)
  }

  /** GetEntry: null exactly when the key is absent, otherwise the stored entity. */
  function GetEntry(s: Store, k: Key): (r: Option<Entity>)
    requires Valid(s)
    ensures r.None? <==> k !in ToMap(s.entries)
    ensures r.Some? ==> exists i :: 0 <= i < |s.entries| && s.entries[i] == Entry(k, r.value)
  {
    var r := Lookup(s.entries, k);
    if r.Some? then MapKeyHasEntry(s.entries, k); r else r
  }

  /**
   * The copy made by GetTypedInternalData<T>: the values whose runtime class
   * is one of `accepted` (T and the classes derived from it), in enumeration order.
   */
  function TypedValues(es: seq<Entry>, accepted: set<Kind>): (r: seq<Entity>)
    ensures |r| <= |es|
    ensures forall e :: e in r <==> e in Values(es) && e.kind in accepted
  {
    Filter(Values(es), (e: Entity) => e.kind in accepted)
  }

  /** The typed copy keeps enumeration order: it distributes over concatenation. */
  lemma TypedValuesKeepOrder(a: seq<Entry>, b: seq<Entry>, accepted: set<Kind>)
    ensures TypedValues(a + b, accepted) == TypedValues(a, accepted) + TypedValues(b, accepted)
  {
    assert Values(a + b) == Values(a) + Values(b);
    FilterAppend(Values(a), Values(b), (e: Entity) => e.kind in accepted);
  }

  /** Asking for a class every entry belongs to copies all values. */
  lemma TypedValuesOfCommonBase(es: seq<Entry>, accepted: set<Kind>)
    requires forall i :: 0 <= i < |es| ==> es[i].value.kind in accepted
    ensures TypedValues(es, accepted) == Values(es)
  {
    FilterKeepsAll(Values(es), (e: Entity) => e.kind in accepted);
  }

  // ---------------------------------------------------------------------------
  // Load

  function LoadEntries(source: seq<Entity>): (es: seq<Entry>)
    ensures |es| == |source|
    ensures forall i :: 0 <= i < |source| ==> es[i] == Entry(i, source[i])
    ensures UniqueKeys(es)
    ensures forall k :: k in ToMap(es) <==> 0 <= k < |source|
    ensures forall i :: 0 <= i < |source| ==> ToMap(es)[i] == source[i]
  {
    if |source| == 0 then []
    else
      var prev := LoadEntries(Init(source));
      var es := prev + [Entry(|source| - 1, Last(source))];
      LoadedPrefixGrows(prev, source);
      es
  }

  /** One more loaded entity, under the next key, keeps the loaded entries' keyed view in step with the source. */
  lemma LoadedPrefixGrows(prev: seq<Entry>, source: seq<Entity>)
    requires |source| > 0 && |prev| == |source| - 1 && UniqueKeys(prev)
    requires forall k :: k in ToMap(prev) <==> 0 <= k < |prev|
    requires forall i :: 0 <= i < |prev| ==> ToMap(prev)[i] == source[i]
    ensures var es := prev + [Entry(|prev|, Last(source))];
      && UniqueKeys(es)
      && (forall k :: k in ToMap(es) <==> 0 <= k < |source|)
      && (forall i :: 0 <= i < |source| ==> ToMap(es)[i] == source[i])
  {
    var es := prev + [Entry(|prev|, Last(source))];
    assert Init(es) == prev && Last(es) == Entry(|prev|, Last(source));
    assert ToMap(es) == ToMap(prev)[|prev| := Last(source)];
  }

  /**
   * Load: every prior entry is discarded and entity `i` of the source is
   * stored under key `i`. It consults neither IsMutable nor m_changed.
   */
  function Load(s: Store, source: seq<Entity>): (r: Store)
    ensures Valid(r) && Dense(r) && Count(r) == |source|
    ensures forall i :: 0 <= i < |source| ==> ToMap(r.entries)[i] == source[i]
    ensures Values(r.entries) == source
    ensures r.mutable == s.mutable && r.changed == s.changed
  {
    var es := LoadEntries(source);
    assert forall i :: 0 <= i < |source| ==> Values(es)[i] == source[i];
    Store(es, s.mutable, s.changed)
  }

  // ---------------------------------------------------------------------------
  // Insertion

  /** Dictionary.Add followed by `m_changed = true`. */
  function AddAndMark(s: Store, key: Key, e: Entity): (r: Result<Store, StoreError>)
    requires Valid(s)
    ensures r.Failure? <==> key in ToMap(s.entries)
    ensures r.Failure? ==> r.error == DuplicateKey(key)
    ensures r.Success? ==>
      && Valid(r.value)
      && ToMap(r.value.entries) == ToMap(s.entries)[key := e]
      && r.value.entries == s.entries + [Entry(key, e)]
      && Count(r.value) == Count(s) + 1
      && r.value.changed && r.value.mutable == s.mutable
  {
    if Lookup(s.entries, key).Some? then Failure(DuplicateKey(key))
    else
      var es := s.entries + [Entry(key, e)];
      assert Init(es) == s.entries;
      MapSizeIsCount(s.entries);
      Success(Store(es, s.mutable, true))
  }

  /** What NewEntry hands back: the store after the call and the entity it returns (null when immutable). */
  datatype Inserted = Inserted(store: Store, entry: Option<Entity>)

  /**
   * NewEntry: on an immutable store returns null and changes nothing; otherwise
   * inserts the freshly constructed entity `created` under key Count, which
   * throws when that key is already taken.
   */
  function NewEntry(s: Store, created: Entity): (r: Result<Inserted, StoreError>)
    requires Valid(s)
    ensures !s.mutable ==> r == Success(Inserted(s, None))
    ensures s.mutable && Count(s) in ToMap(s.entries) ==> r == Failure(DuplicateKey(Count(s)))
    ensures s.mutable && Count(s) !in ToMap(s.entries) ==>
      && r.Success? && r.value.entry == Some(created)
      && Valid(r.value.store)
      && ToMap(r.value.store.entries) == ToMap(s.entries)[Count(s) := created]
      && r.value.store.entries == s.entries + [Entry(Count(s), created)]
      && Count(r.value.store) == Count(s) + 1
      && r.value.store.changed && r.value.store.mutable
  {
    if !s.mutable then Success(Inserted(s, None))
    else
      match AddAndMark(s, Count(s), created)
      case Failure(err) => Failure(err)
      case Success(s') => Success(Inserted(s', Some(created)))
  }

  /**
   * AddEntry: a no-op on an immutable store; otherwise inserts under the
   * caller's key, which throws when the key is already taken.
   */
  function AddEntry(s: Store, key: Key, e: Entity): (r: Result<Store, StoreError>)
    requires Valid(s)
    ensures !s.mutable ==> r == Success(s)
    ensures s.mutable && key in ToMap(s.entries) ==> r == Failure(DuplicateKey(key))
    ensures s.mutable && key !in ToMap(s.entries) ==>
      && r.Success? && Valid(r.value)
      && ToMap(r.value.entries) == ToMap(s.entries)[key := e]
      && r.value.entries == s.entries + [Entry(key, e)]
      && Count(r.value) == Count(s) + 1
      && r.value.changed && r.value.mutable
  {
    if !s.mutable then Success(s) else AddAndMark(s, key, e)
  }

  /** On a dense store NewEntry never collides, and the store stays dense. */
  lemma NewEntryOnDenseStore(s: Store, created: Entity)
    requires Valid(s) && Dense(s) && s.mutable
    ensures NewEntry(s, created).Success?
    ensures Dense(NewEntry(s, created).value.store)
  {
    assert Count(s) !in ToMap(s.entries);
    DenseGrowsByCount(s, NewEntry(s, created).value.store, created);
  }

  /** A dense store that gains key Count stays dense. */
  lemma DenseGrowsByCount(s: Store, r: Store, created: Entity)
    requires Dense(s)
    requires ToMap(r.entries) == ToMap(s.entries)[Count(s) := created] && Count(r) == Count(s) + 1
    ensures Dense(r)
  {
    forall k
      ensures k in ToMap(r.entries) <==> 0 <= k < Count(r)
    {
      assert k in ToMap(s.entries) <==> 0 <= k < Count(s);
    }
  }

  // ---------------------------------------------------------------------------
  // Deletion

  /** Whether an entry survives the removal of key `k`. */
  function KeyIsNot(k: Key): Entry -> bool
  {
    (x: Entry) => x.key != k
  }

  /** The entries without the one stored under `k`. */
  function Without(es: seq<Entry>, k: Key): (r: seq<Entry>)
    ensures ToMap(r) == ToMap(es) - {k}
    ensures UniqueKeys(es) ==> UniqueKeys(r)
    ensures |r| <= |es|
  {
    if |es| == 0 then []
    else
      var rest := Without(Init(es), k);
      if Last(es).key == k then rest
      else
        assert Init(rest + [Last(es)]) == rest;
        rest + [Last(es)]
  }

  /** Removing a key keeps the surviving entries in their enumeration order. */
  lemma {:induction false} WithoutKeepsOrder(es: seq<Entry>, k: Key)
    ensures Without(es, k) == Filter(es, KeyIsNot(k))
  {
    if |es| > 0 {
      WithoutKeepsOrder(Init(es), k);
      assert es == Init(es) + [Last(es)];
      FilterAppend(Init(es), [Last(es)], KeyIsNot(k));
      assert Init([Last(es)]) == [];
    }
  }

  /** Every entry's key is a key of the keyed view. */
  lemma {:induction false} KeyInMap(es: seq<Entry>, i: int)
    requires 0 <= i < |es|
    ensures es[i].key in ToMap(es)
  {
    if i < |es| - 1 {
      KeyInMap(Init(es), i);
      assert Init(es)[i] == es[i];
    }
  }

  lemma {:induction false} WithoutAbsent(es: seq<Entry>, k: Key)
    requires k !in ToMap(es)
    ensures Without(es, k) == es
  {
    forall i | 0 <= i < |es|
      ensures KeyIsNot(k)(es[i])
    {
      KeyInMap(es, i);
    }
    WithoutKeepsOrder(es, k);
    FilterKeepsAll(es, KeyIsNot(k));
  }

  lemma {:induction false} WithoutPresent(es: seq<Entry>, k: Key)
    requires UniqueKeys(es) && k in ToMap(es)
    ensures |Without(es, k)| == |es| - 1
  {
    if Last(es).key == k {
      WithoutAbsent(Init(es), k);
    } else {
      WithoutPresent(Init(es), k);
    }
  }

  /** The result of a deletion call: the store after it, the boolean it returns, and the entities it disposed. */
  datatype Deleted = Deleted(store: Store, returned: bool, disposed: seq<Entity>)

  /**
   * DeleteEntry(id): true exactly when the store is mutable and holds `id`;
   * then that key alone is removed, its entity disposed and m_changed set.
   * Otherwise false and nothing changes.
   */
  function DeleteEntry(s: Store, id: Key): (r: Deleted)
    requires Valid(s)
    ensures Valid(r.store) && r.store.mutable == s.mutable
    ensures r.returned <==> s.mutable && id in ToMap(s.entries)
    ensures r.returned ==>
      && ToMap(r.store.entries) == ToMap(s.entries) - {id}
      && Count(r.store) == Count(s) - 1
      && r.store.changed
      && r.disposed == [ToMap(s.entries)[id]]
    ensures !r.returned ==> r.store == s && r.disposed == []
  {
    if !s.mutable then Deleted(s, false, [])
    else
      match Lookup(s.entries, id)
      case None => Deleted(s, false, [])
      case Some(v) =>
        WithoutPresent(s.entries, id);
        Deleted(Store(Without(s.entries, id), s.mutable, true), true, [v])
  }

  /** The position of the first entry, in enumeration order, whose value equals `e`. */
  function FirstIndexOf(es: seq<Entry>, e: Entity): (r: Option<nat>)
    ensures r.Some? ==> r.value < |es| && es[r.value].value == e
    ensures r.Some? ==> forall j :: 0 <= j < r.value ==> es[j].value != e
    ensures r.None? ==> forall j :: 0 <= j < |es| ==> es[j].value != e
  {
    if |es| == 0 then None
    else if es[0].value == e then Some(0)
    else
      match FirstIndexOf(es[1..], e)
      case None => None
      case Some(i) => Some(i + 1)
  }

  /**
   * DeleteEntry(BaseObject): deletes the first entry equal to `e` by key, but
   * returns false whether or not it deleted anything.
   */
  function DeleteEntryByValue(s: Store, e: Entity): (r: Deleted)
    requires Valid(s)
    ensures !r.returned
    ensures Valid(r.store) && r.store.mutable == s.mutable
    ensures Count(r.store) == Count(s) - |r.disposed|
    ensures r.store.changed <==> s.changed || |r.disposed| > 0
    ensures !s.mutable || (forall j :: 0 <= j < |s.entries| ==> s.entries[j].value != e) ==>
      r.store == s && r.disposed == []
    ensures s.mutable ==> forall i ::
      (0 <= i < |s.entries| && s.entries[i].value == e
       && (forall j :: 0 <= j < i ==> s.entries[j].value != e)) ==>
        && ToMap(r.store.entries) == ToMap(s.entries) - {s.entries[i].key}
        && Count(r.store) == Count(s) - 1
        && r.store.changed
        && r.disposed == [e]
  {
    if !s.mutable then Deleted(s, false, [])
    else
      match FirstIndexOf(s.entries, e)
      case None => Deleted(s, false, [])
      case Some(i) =>
        EntryInMap(s.entries, i);
        var d := DeleteEntry(s, s.entries[i].key);
        Deleted(d.store, false, d.disposed)
  }

  /** The foreach of DeleteEntries(List<T>): one DeleteEntry(BaseObject) per victim, in list order. */
  function DeleteEachValue(s: Store, victims: seq<Entity>): (r: Deleted)
    requires Valid(s)
    ensures !r.returned
    ensures Valid(r.store) && r.store.mutable == s.mutable
    ensures Count(r.store) == Count(s) - |r.disposed|
    ensures forall k :: k in ToMap(r.store.entries) ==>
      k in ToMap(s.entries) && ToMap(r.store.entries)[k] == ToMap(s.entries)[k]
    ensures forall k :: k in ToMap(s.entries) && ToMap(s.entries)[k] !in victims ==>
      k in ToMap(r.store.entries)
    ensures forall x :: x in r.disposed ==> x in victims
    ensures r.store.changed <==> s.changed || |r.disposed| > 0
    decreases |victims|
  {
    if |victims| == 0 then Deleted(s, false, [])
    else
      var first := DeleteEntryByValue(s, victims[0]);
      var rest := DeleteEachValue(first.store, victims[1..]);
      FirstDeletionKeepsOthers(s, victims[0]);
      Deleted(rest.store, false, first.disposed + rest.disposed)
  }

  /** One deletion by value removes at most the key holding that value. */
  lemma FirstDeletionKeepsOthers(s: Store, e: Entity)
    requires Valid(s)
    ensures var r := DeleteEntryByValue(s, e);
      && (forall k :: k in ToMap(r.store.entries) ==>
            k in ToMap(s.entries) && ToMap(r.store.entries)[k] == ToMap(s.entries)[k])
      && (forall k :: k in ToMap(s.entries) && ToMap(s.entries)[k] != e ==> k in ToMap(r.store.entries))
      && (forall x :: x in r.disposed ==> x == e)
  {
    if s.mutable && FirstIndexOf(s.entries, e).Some? {
      var i := FirstIndexOf(s.entries, e).value;
      DeletionAtFirstIndex(s, e, i);
      EntryInMap(s.entries, i);
    }
  }

  /** The deletion by value of an entity found first at position `i` removes that entry's key and disposes the entity. */
  lemma DeletionAtFirstIndex(s: Store, e: Entity, i: nat)
    requires Valid(s) && s.mutable && FirstIndexOf(s.entries, e) == Some(i)
    ensures var r := DeleteEntryByValue(s, e);
      ToMap(r.store.entries) == ToMap(s.entries) - {s.entries[i].key} && r.disposed == [e]
  {
  }

  /**
   * DeleteEntries(List<T>): false on an immutable store, true otherwise; only
   * entities in the list are ever removed, and each removal disposes one of them.
   */
  function DeleteEntriesByValue(s: Store, victims: seq<Entity>): (r: Deleted)
    requires Valid(s)
    ensures r.returned == s.mutable
    ensures Valid(r.store) && r.store.mutable == s.mutable
    ensures !s.mutable ==> r.store == s && r.disposed == []
    ensures Count(r.store) == Count(s) - |r.disposed|
    ensures forall k :: k in ToMap(r.store.entries) ==>
      k in ToMap(s.entries) && ToMap(r.store.entries)[k] == ToMap(s.entries)[k]
    ensures forall k :: k in ToMap(s.entries) && ToMap(s.entries)[k] !in victims ==>
      k in ToMap(r.store.entries)
    ensures forall x :: x in r.disposed ==> x in victims
    ensures r.store.changed <==> s.changed || |r.disposed| > 0
  {
    if !s.mutable then Deleted(s, false, [])
    else
      var d := DeleteEachValue(s, victims);
      Deleted(d.store, true, d.disposed)
  }

  /** No two keys hold the same entity. */
  predicate DistinctValues(s: Store)
  {
    forall k1, k2 :: k1 in ToMap(s.entries) && k2 in ToMap(s.entries) && k1 != k2 ==>
      ToMap(s.entries)[k1] != ToMap(s.entries)[k2]
  }

  /** When no entity is stored twice, DeleteEntries(List<T>) leaves none of the listed entities behind. */
  lemma {:induction false} DeleteEntriesByValueRemovesAll(s: Store, victims: seq<Entity>)
    requires Valid(s) && s.mutable && DistinctValues(s)
    ensures var r := DeleteEntriesByValue(s, victims).store;
      forall k :: k in ToMap(r.entries) ==> ToMap(r.entries)[k] !in victims
  {
    DeleteEachValueRemovesAll(s, victims);
    var r := DeleteEntriesByValue(s, victims).store;
    assert r == DeleteEachValue(s, victims).store;
    forall k | k in ToMap(r.entries)
      ensures ToMap(r.entries)[k] !in victims
    {
    }
  }

  /** Deleting by value an entity the store does not hold changes nothing. */
  lemma DeletionOfAbsentValue(s: Store, e: Entity)
    requires Valid(s) && FirstIndexOf(s.entries, e).None?
    ensures DeleteEntryByValue(s, e).store == s && DeleteEntryByValue(s, e).disposed == []
  {
  }

  /** On a mutable store with distinct values, one deletion by value leaves that value nowhere. */
  lemma FirstDeletionRemovesValue(s: Store, v: Entity)
    requires Valid(s) && s.mutable && DistinctValues(s)
    ensures var r := DeleteEntryByValue(s, v).store;
      && r.mutable && DistinctValues(r)
      && forall k :: k in ToMap(r.entries) ==> ToMap(r.entries)[k] != v
  {
    var first := DeleteEntryByValue(s, v);
    var m := ToMap(s.entries);
    match FirstIndexOf(s.entries, v)
    case None =>
      DeletionOfAbsentValue(s, v);
      forall k | k in m
        ensures m[k] != v
      {
        MapKeyHasEntry(s.entries, k);
        var j :| 0 <= j < |s.entries| && s.entries[j].key == k && s.entries[j].value == m[k];
      }
    case Some(i) =>
      FirstDeletionKeepsOthers(s, v);
      DeletionAtFirstIndex(s, v, i);
      EntryInMap(s.entries, i);
  }

  /**
   * The step of DeleteEachValueRemovesAll on the keyed views: if the first
   * deletion left no `victims[0]` and the rest left none of the others, none is left.
   */
  lemma NoVictimLeft(m1: map<Key, Entity>, rest: map<Key, Entity>, victims: seq<Entity>)
    requires |victims| > 0
    requires forall k :: k in rest ==> k in m1 && rest[k] == m1[k]
    requires forall k :: k in m1 ==> m1[k] != victims[0]
    requires forall k :: k in rest ==> rest[k] !in victims[1..]
    ensures forall k :: k in rest ==> rest[k] !in victims
  {
    assert victims == [victims[0]] + victims[1..];
  }

  lemma {:induction false} DeleteEachValueRemovesAll(s: Store, victims: seq<Entity>)
    requires Valid(s) && s.mutable && DistinctValues(s)
    ensures var r := DeleteEachValue(s, victims).store;
      forall k :: k in ToMap(r.entries) ==> ToMap(r.entries)[k] !in victims
    decreases |victims|
  {
    if |victims| > 0 {
      var v := victims[0];
      var first := DeleteEntryByValue(s, v);
      var m1 := ToMap(first.store.entries);
      FirstDeletionRemovesValue(s, v);
      FirstDeletionKeepsOthers(s, v);
      DeleteEachValueRemovesAll(first.store, victims[1..]);
      assert var r := DeleteEachValue(first.store, victims[1..]).store;
        forall k :: k in ToMap(r.entries) ==> ToMap(r.entries)[k] !in victims[1..];
      var r := DeleteEachValue(first.store, victims[1..]).store;
      assert forall k :: k in ToMap(r.entries) ==> ToMap(r.entries)[k] !in victims[1..];
      var rest := ToMap(r.entries);
      assert DeleteEachValue(s, victims).store == r;
      NoVictimLeft(m1, rest, victims);
    } else {
      assert forall k :: k in ToMap(DeleteEachValue(s, victims).store.entries) ==> ToMap(DeleteEachValue(s, victims).store.entries)[k] !in victims;
    }
  }

  /** The foreach of DeleteEntries(Dictionary<long, T>): one DeleteEntry(id) per key, in order. */
  function DeleteEachKey(s: Store, ids: seq<Key>): (r: Deleted)
    requires Valid(s)
    ensures !r.returned
    ensures Valid(r.store) && r.store.mutable == s.mutable
    ensures s.mutable ==> ToMap(r.store.entries) == ToMap(s.entries) - set k | k in ids
    ensures !s.mutable ==> r.store == s
    ensures Count(r.store) == Count(s) - |r.disposed|
    ensures r.store.changed <==> s.changed || (s.mutable && exists k :: k in ids && k in ToMap(s.entries))
    decreases |ids|
  {
    if |ids| == 0 then Deleted(s, false, [])
    else
      var first := DeleteEntry(s, ids[0]);
      var rest := DeleteEachKey(first.store, ids[1..]);
      SplitFirstId(ToMap(s.entries), ids);
      Deleted(rest.store, false, first.disposed + rest.disposed)
  }

  /** Peeling the first id off a list of ids to delete, for the key set and for "some id is present". */
  lemma SplitFirstId(m: map<Key, Entity>, ids: seq<Key>)
    requires |ids| > 0
    ensures (set k | k in ids) == {ids[0]} + set k | k in ids[1..]
    ensures (exists k :: k in ids && k in m) <==> ids[0] in m || exists k :: k in ids[1..] && k in m - {ids[0]}
  {
    assert ids == [ids[0]] + ids[1..];
    if exists k :: k in ids && k in m {
      var k :| k in ids && k in m;
      if k != ids[0] {
        assert k in ids[1..] && k in m - {ids[0]};
      }
    }
    if exists k :: k in ids[1..] && k in m - {ids[0]} {
      var k :| k in ids[1..] && k in m - {ids[0]};
      assert k in ids;
    }
  }

  /**
   * DeleteEntries(Dictionary<long, T>): false on an immutable store; otherwise
   * removes exactly the listed keys that are present and returns true.
   */
  function DeleteEntriesByKey(s: Store, ids: seq<Key>): (r: Deleted)
    requires Valid(s)
    ensures r.returned == s.mutable
    ensures Valid(r.store) && r.store.mutable == s.mutable
    ensures s.mutable ==> ToMap(r.store.entries) == ToMap(s.entries) - set k | k in ids
    ensures !s.mutable ==> r.store == s && r.disposed == []
    ensures Count(r.store) == Count(s) - |r.disposed|
    ensures r.store.changed <==> s.changed || (s.mutable && exists k :: k in ids && k in ToMap(s.entries))
  {
    if !s.mutable then Deleted(s, false, [])
    else
      var d := DeleteEachKey(s, ids);
      Deleted(d.store, true, d.disposed)
  }

  // ---------------------------------------------------------------------------
  // The Changed property

  /**
   * Every mutation that succeeds leaves the store Changed, so a following Save
   * is not skipped for want of changes.
   */
  lemma MutationsMarkChanged(s: Store, key: Key, e: Entity, id: Key)
    requires Valid(s)
    ensures AddEntry(s, key, e).Success? && s.mutable ==> Changed(AddEntry(s, key, e).value)
    ensures NewEntry(s, e).Success? && NewEntry(s, e).value.entry.Some? ==> Changed(NewEntry(s, e).value.store)
    ensures DeleteEntry(s, id).returned ==> Changed(DeleteEntry(s, id).store)
  {
  }

  /**
   * Load leaves m_changed alone: the loaded store is Changed exactly when the
   * flag was already set or some loaded entity carries its own dirty flag.
   */
  lemma LoadChanged(s: Store, source: seq<Entity>)
    ensures Changed(Load(s, source)) <==> s.changed || exists i :: 0 <= i < |source| && source[i].changed
  {
    var l := Load(s, source);
    forall i | 0 <= i < |source|
      ensures l.entries[i].value == source[i]
    {
      assert Values(l.entries)[i] == source[i];
    }
  }

  // ---------------------------------------------------------------------------
  // Key reuse after deletion

  /**
   * NewEntry keys by Count, so after deleting any key but the last from a dense
   * store the next NewEntry collides with the last key and throws.
   */
  lemma NewEntryCollidesAfterDelete(s: Store, k: Key, created: Entity)
    requires Valid(s) && Dense(s) && s.mutable
    requires 0 <= k < Count(s) - 1
    ensures var d := DeleteEntry(s, k);
      d.returned && NewEntry(d.store, created) == Failure(DuplicateKey(Count(s) - 1))
  {
    var d := DeleteEntry(s, k);
    assert Count(s) - 1 in ToMap(d.store.entries);
  }

  /** Deleting the last key of a dense store and inserting again hands out the deleted key. */
  lemma NewEntryReusesDeletedKey(s: Store, created: Entity)
    requires Valid(s) && Dense(s) && s.mutable && Count(s) > 0
    ensures var d := DeleteEntry(s, Count(s) - 1);
      && d.returned
      && NewEntry(d.store, created).Success?
      && Count(s) - 1 in ToMap(NewEntry(d.store, created).value.store.entries)
  {
    var d := DeleteEntry(s, Count(s) - 1);
    assert Count(d.store) == Count(s) - 1;
    assert Count(s) - 1 !in ToMap(d.store.entries);
  }
}

=== FILE: host.dfy ===
/**
 * What the managers see of the host process: the Owned flag of its save lock
 * (a FastResourceLock) and the work they marshal onto its main game thread.
 */
module Host {

  /** A snapshot of a FastResourceLock: the core only ever reads `Owned`. */
  datatype SaveLock = SaveLock(owned: bool)

  /** Closures enqueued onto the host's main game thread, in FIFO order. */
  datatype GameAction =
    | RefreshDataAction(owner: nat)   // a manager's RefreshData, tagged with the manager's class
    | InternalSaveWorldAction         // WorldManager.InternalSaveWorld
    | AsyncSnapshotStartAction        // MyAsyncSaving.Start, issued by the asynchronous save task
}

=== FILE: object_manager.dfy ===
/**
 * One BaseObjectManager as a whole: its keyed store, its backing-source
 * settings, its refresh schedule, its locks and its two staging containers,
 * together with the process-wide refresh counters and the host's main-thread
 * queue that every manager shares.
 *
 * Refresh runs on the caller's thread and only enqueues RefreshData; RefreshData
 * runs later on the main game thread, against whatever the host looks like then.
 */
module ObjectManager {
  import opened Wrappers
  import opened Host
  import opened EntityStore
  import opened RefreshScheduler
  import opened Staging
  import WorldSave

  /** InternalBackingType: which staging container RefreshData refills. */
  datatype BackingKind = HashSetBacking | ListBacking | DictionaryBacking

  /**
   * The per-manager state: the keyed store with its IsMutable and m_changed
   * flags, the manager's class, IsDynamic, the backing-source type, whether
   * m_backingObject is non-null, m_lastLoadTime and m_refreshInterval, the
   * four locks, the raw hash set and raw list, whether m_fileInfo is set, and
   * whether the constructor found the matching definitions-container field.
   */
  datatype Manager = Manager(
    store: Store,
    typeId: TypeId,
    dynamic: bool,
    backingKind: BackingKind,
    hasBackingObject: bool,
    schedule: Schedule,
    locks: Locks,
    hashSet: set<Raw>,
    list: seq<Raw>,
    fileSet: bool,
    containerFieldFound: bool)

  /** The static refresh counters and the host's main-thread queue. */
  datatype Shared = Shared(stats: RefreshStats, queue: seq<GameAction>)

  /** CanRefresh, read from the manager's own flags and locks and the host. */
  predicate CanRefreshNow(m: Manager, host: HostView)
  {
    CanRefresh(m.dynamic, m.store.mutable, m.locks, host)
  }

  // ---------------------------------------------------------------------------
  // Construction

  /**
   * The backing-source constructor: an empty, clean, mutable and dynamic
   * manager, no file, stamped with the construction time and the initial
   * interval, and all locks free.
   */
  function NewDynamic(typeId: TypeId, kind: BackingKind, hasBackingObject: bool, nowMs: int,
                      containerFieldFound: bool): (m: Manager)
    ensures Valid(m.store) && Count(m.store) == 0 && !Changed(m.store) && m.store.mutable
    ensures m.dynamic && m.locks == Unlocked && !m.fileSet
    ensures m.schedule == Schedule(nowMs, InitialIntervalMs)
  {
    Manager(Store([], true, false), typeId, true, kind, hasBackingObject, Schedule(nowMs, InitialIntervalMs),
            Unlocked, {}, [], false, containerFieldFound)
  }

  /**
   * The constructors that take an initial array or list of entities: a static
   * (non-dynamic) manager holding them under keys 0..n-1. Its m_lastLoadTime and
   * m_refreshInterval keep their default values, which nothing reads while the
   * manager is not dynamic.
   */
  function NewLoaded(typeId: TypeId, source: seq<Entity>, containerFieldFound: bool): (m: Manager)
    ensures Valid(m.store) && Dense(m.store) && Values(m.store.entries) == source
    ensures !m.dynamic && m.store.mutable && !m.store.changed && !m.fileSet && m.locks == Unlocked
  {
    Manager(Load(Store([], true, false), source), typeId, false, HashSetBacking, false, Schedule(0, 0),
            Unlocked, {}, [], false, containerFieldFound)
  }

  /** A freshly built dynamic manager dispatches no refresh in its first 250 ms. */
  lemma FirstRefreshWaitsForInterval(typeId: TypeId, kind: BackingKind, hasBackingObject: bool, createdMs: int,
                                     fieldFound: bool, sh: Shared, host: HostView, nowMs: int)
    ensures var m := NewDynamic(typeId, kind, hasBackingObject, createdMs, fieldFound);
      Refresh(m, sh, host, nowMs, Enqueued).dispatched <==> nowMs >= createdMs + InitialIntervalMs && CanRefreshNow(m, host)
  {
  }

  /**
   * As constructed, a manager built from a list of entities is static and has
   * no file: it neither dispatches a refresh nor saves until its public setters
   * change that.
   */
  lemma LoadedManagerIsStatic(typeId: TypeId, source: seq<Entity>, fieldFound: bool,
                              sh: Shared, host: HostView, nowMs: int, enqueue: EnqueueOutcome)
    ensures var r := Refresh(NewLoaded(typeId, source, fieldFound), sh, host, nowMs, enqueue);
      !r.dispatched && !r.raised
    ensures Save(NewLoaded(typeId, source, fieldFound)) == NotSaved
  {
  }

  // ---------------------------------------------------------------------------
  // Refresh

  /**
   * How EnqueueMainGameAction ends: RefreshData is queued on the main thread,
   * or the call throws and the exception leaves Refresh.
   */
  datatype EnqueueOutcome = Enqueued | EnqueueThrew

  /**
   * The state after Refresh, whether RefreshData was queued, and whether
   * Refresh ended by throwing.
   */
  datatype Refreshed = Refreshed(manager: Manager, shared: Shared, dispatched: bool, raised: bool)

  /**
   * Refresh: when CanRefresh holds and at least m_refreshInterval ms have
   * passed since the last dispatch, the manager stamps the load time and
   * enqueues its RefreshData on the main thread; once that succeeds it bumps
   * both counters and recomputes the interval. When the enqueue throws, the
   * stamp is already made and nothing after it happens. Otherwise nothing at
   * all changes.
   */
  function Refresh(m: Manager, sh: Shared, host: HostView, nowMs: int, enqueue: EnqueueOutcome): (r: Refreshed)
    ensures r.dispatched || r.raised <==> CanRefreshNow(m, host) && nowMs - m.schedule.lastLoadTimeMs >= m.schedule.intervalMs
    ensures r.dispatched ==> enqueue == Enqueued
    ensures r.raised ==> enqueue == EnqueueThrew
    ensures !r.dispatched && !r.raised ==> r.manager == m && r.shared == sh
    ensures r.raised ==>
      && r.manager == m.(schedule := m.schedule.(lastLoadTimeMs := nowMs))
      && r.shared == sh
    ensures r.dispatched ==>
      && r.manager == m.(schedule := r.manager.schedule)
      && r.manager.schedule.lastLoadTimeMs == nowMs
      && r.manager.schedule.intervalMs >= IntervalBaseMs
      && r.manager.schedule == Dispatch(m.schedule, sh.stats, m.typeId, nowMs).schedule
      && r.shared.stats == RecordDispatch(sh.stats, m.typeId)
      && r.shared.queue == sh.queue + [RefreshDataAction(m.typeId)]
      && r.shared.stats.total == sh.stats.total + 1
      && TypeCount(r.shared.stats, m.typeId) == TypeCount(sh.stats, m.typeId) + 1
  {
    if !CanRefreshNow(m, host) then Refreshed(m, sh, false, false)
    else if !TimeGateOpen(m.schedule, nowMs) then Refreshed(m, sh, false, false)
    else
      match enqueue
      case EnqueueThrew =>
        Refreshed(m.(schedule := m.schedule.(lastLoadTimeMs := nowMs)), sh, false, true)
      case Enqueued =>
        var d := Dispatch(m.schedule, sh.stats, m.typeId, nowMs);
        Refreshed(m.(schedule := d.schedule), Shared(d.stats, sh.queue + [RefreshDataAction(m.typeId)]), true, false)
  }

  /**
   * The time gate in both directions: a second Refresh less than 250 ms after
   * a dispatch is refused whatever the host looks like, and, with counters
   * that follow the dispatch history `h`, one at least MaxIntervalMs later is
   * dispatched whenever CanRefresh still holds and its enqueue succeeds.
   */
  lemma RefreshTwiceWithinInterval(m: Manager, sh: Shared, h: seq<TypeId>, host: HostView, host2: HostView,
                                   t1: int, t2: int, enqueue2: EnqueueOutcome)
    requires Tracks(sh.stats, h)
    requires Refresh(m, sh, host, t1, Enqueued).dispatched
    ensures var r1 := Refresh(m, sh, host, t1, Enqueued);
      && (t1 <= t2 < t1 + IntervalBaseMs ==> !Refresh(r1.manager, r1.shared, host2, t2, enqueue2).dispatched)
      && (t2 >= t1 + MaxIntervalMs && CanRefreshNow(m, host2) ==>
            Refresh(r1.manager, r1.shared, host2, t2, Enqueued).dispatched)
  {
    DispatchInterval(m.schedule, sh.stats, h, m.typeId, t1);
  }

  /**
   * A Refresh whose enqueue throws still stamps the load time: nothing is
   * queued and no counter moves, yet every Refresh within the old interval
   * after it is refused, so the manager waits a full interval for nothing.
   */
  lemma FailedEnqueuePostponesRefresh(m: Manager, sh: Shared, host: HostView, host2: HostView,
                                      t1: int, t2: int, enqueue2: EnqueueOutcome)
    requires Refresh(m, sh, host, t1, EnqueueThrew).raised
    ensures var r1 := Refresh(m, sh, host, t1, EnqueueThrew);
      && r1.shared == sh
      && r1.manager.schedule == Schedule(t1, m.schedule.intervalMs)
      && (t1 <= t2 < t1 + m.schedule.intervalMs ==>
            var r2 := Refresh(r1.manager, r1.shared, host2, t2, enqueue2);
            !r2.dispatched && !r2.raised && r2.shared == sh)
  {
  }

  // ---------------------------------------------------------------------------
  // RefreshData on the main thread

  /**
   * RefreshData with every lock released on every exit: when CanRefresh holds
   * on the main thread, the staging container of the manager's backing type
   * is refilled from the backing object; the store itself is untouched, since
   * the base LoadDynamic does nothing.
   */
  function RefreshData(m: Manager, host: HostView, fetch: RawFetch, valid: Raw -> bool): (r: Manager)
    ensures r == m.(hashSet := r.hashSet, list := r.list)
    ensures !CanRefreshNow(m, host) ==> r == m
    ensures !m.hasBackingObject || !fetch.Items? ==> r == m
    ensures m.backingKind != HashSetBacking ==> r.hashSet == m.hashSet
    ensures m.backingKind != ListBacking ==> r.list == m.list
    ensures CanRefreshNow(m, host) && m.hasBackingObject && fetch.Items? ==>
      && (m.backingKind == HashSetBacking ==> forall x :: x in r.hashSet <==> x in fetch.items && valid(x))
      && (m.backingKind == ListBacking ==> forall x :: x in r.list <==> x in fetch.items && valid(x))
    ensures m.backingKind == HashSetBacking ==>
      r.hashSet == RefreshHashSet(CanRefreshNow(m, host), m.hasBackingObject, fetch, valid, m.hashSet)
    ensures m.backingKind == ListBacking ==>
      r.list == RefreshList(CanRefreshNow(m, host), m.hasBackingObject, fetch, valid, m.list)
  {
    if !CanRefreshNow(m, host) then m
    else
      match m.backingKind
      case HashSetBacking => m.(hashSet := RefreshHashSet(true, m.hasBackingObject, fetch, valid, m.hashSet))
      case ListBacking => m.(list := RefreshList(true, m.hasBackingObject, fetch, valid, m.list))
      case DictionaryBacking => m
  }

  /**
   * How RefreshData as written ends: it finishes, or the main thread blocks
   * forever in AcquireShared on the staging lock its own pass left held, while
   * it holds the main lock exclusively.
   */
  datatype Pass = Finished(manager: Manager) | MainThreadBlocked(manager: Manager)

  /**
   * RefreshData as written: the staging pass may return with its exclusive
   * lock still held, and RefreshData then asks for the same lock shared.
   */
  function RefreshDataAsWritten(m: Manager, host: HostView, fetch: RawFetch, valid: Raw -> bool): (r: Pass)
    ensures r.MainThreadBlocked? <==>
      CanRefreshNow(m, host) && m.backingKind != DictionaryBacking && LeaksLock(true, m.hasBackingObject, fetch)
    ensures r.Finished? ==> r.manager == RefreshData(m, host, fetch, valid)
    ensures r.MainThreadBlocked? ==> r.manager.locks.main && StagingLocked(r.manager.locks)
  {
    if !CanRefreshNow(m, host) then Finished(m)
    else
      match m.backingKind
      case HashSetBacking =>
        var p := RefreshHashSetAsWritten(true, m.hasBackingObject, fetch, valid, m.hashSet);
        var m1 := m.(hashSet := p.container);
        if p.lockHeld then MainThreadBlocked(m1.(locks := m.locks.(main := true, hashSet := true)))
        else Finished(m1)
      case ListBacking =>
        var p := RefreshListAsWritten(true, m.hasBackingObject, fetch, valid, m.list);
        var m1 := m.(list := p.container);
        if p.lockHeld then MainThreadBlocked(m1.(locks := m.locks.(main := true, list := true)))
        else Finished(m1)
      case DictionaryBacking => Finished(m)
  }

  /**
   * A HashSet- or List-backed manager whose backing object is null hangs the
   * main thread on its first RefreshData, and from then on CanRefresh is false
   * under every host view, so no later Refresh is ever dispatched.
   */
  lemma NullBackingObjectBlocksMainThread(m: Manager, host: HostView, fetch: RawFetch, valid: Raw -> bool,
                                          sh: Shared, later: HostView, nowMs: int, enqueue: EnqueueOutcome)
    requires CanRefreshNow(m, host)
    requires m.backingKind != DictionaryBacking && !m.hasBackingObject
    ensures RefreshDataAsWritten(m, host, fetch, valid).MainThreadBlocked?
    ensures var r := Refresh(RefreshDataAsWritten(m, host, fetch, valid).manager, sh, later, nowMs, enqueue);
      !r.dispatched && !r.raised
  {
  }

  /**
   * With the locks released on every exit, RefreshData leaves CanRefresh as it
   * found it, so the manager keeps refreshing once its interval has passed.
   */
  lemma RefreshDataKeepsRefreshing(m: Manager, host: HostView, fetch: RawFetch, valid: Raw -> bool,
                                   sh: Shared, later: HostView, nowMs: int)
    ensures CanRefreshNow(RefreshData(m, host, fetch, valid), later) == CanRefreshNow(m, later)
    ensures RefreshData(m, host, fetch, valid).schedule == m.schedule
    ensures CanRefreshNow(m, later) && TimeGateOpen(m.schedule, nowMs) ==>
      Refresh(RefreshData(m, host, fetch, valid), sh, later, nowMs, Enqueued).dispatched
  {
  }

  // ---------------------------------------------------------------------------
  // Reads

  datatype TypedRead = TypedRead(items: seq<Entity>, step: Refreshed)

  /**
   * GetTypedInternalData<T>: a copy of the values of class T (the classes in
   * `accepted`), in enumeration order, taken before the read triggers Refresh.
   * When that Refresh throws, the read catches it and returns an empty list.
   */
  function GetTypedInternalData(m: Manager, sh: Shared, accepted: set<Kind>, host: HostView, nowMs: int,
                                enqueue: EnqueueOutcome): (r: TypedRead)
    ensures r.step == Refresh(m, sh, host, nowMs, enqueue)
    ensures r.step.raised ==> r.items == []
    ensures !r.step.raised ==> r.items == TypedValues(m.store.entries, accepted)
    ensures !r.step.raised ==> forall e :: e in r.items <==> e in Values(m.store.entries) && e.kind in accepted
    ensures |r.items| <= Count(m.store)
    ensures r.step.manager.store == m.store
  {
    var step := Refresh(m, sh, host, nowMs, enqueue);
    TypedRead(if step.raised then [] else TypedValues(m.store.entries, accepted), step)
  }

  // ---------------------------------------------------------------------------
  // Save

  /**
   * The result of Save: false (nothing written), true after the builders were
   * handed to the file writer, or the GameInstallationInfoException thrown
   * when the definitions-container field was not found.
   */
  datatype SaveOutcome = NotSaved | Written(payload: seq<Builder>) | Invalid

  /** The object builders of the entries, in enumeration order. */
  function Builders(es: seq<Entry>): (r: seq<Builder>)
    ensures |r| == |es|
    ensures forall i :: 0 <= i < |es| ==> r[i] == es[i].value.builder
  {
    seq(|es|, i requires 0 <= i < |es| => es[i].value.builder)
  }

  /**
   * Save: nothing is written unless something changed, the manager is mutable
   * and a file is set; then a missing container field throws, and otherwise
   * the builders of all values go out in enumeration order. The write's own
   * failure is swallowed below Save, so a write always reports true.
   */
  function Save(m: Manager): (r: SaveOutcome)
    ensures r == NotSaved <==> !Changed(m.store) || !m.store.mutable || !m.fileSet
    ensures r == Invalid <==> Changed(m.store) && m.store.mutable && m.fileSet && !m.containerFieldFound
    ensures r.Written? ==> |r.payload| == Count(m.store)
    ensures r.Written? ==> forall i :: 0 <= i < Count(m.store) ==> r.payload[i] == m.store.entries[i].value.builder
  {
    if !Changed(m.store) then NotSaved
    else if !m.store.mutable then NotSaved
    else if !m.fileSet then NotSaved
    else if !m.containerFieldFound then Invalid
    else Written(Builders(m.store.entries))
  }

  /**
   * Saving right after a Load writes the loaded builders in source order when
   * something is dirty; since Load does not set m_changed, a Load of clean
   * entities into a clean manager is not saved at all.
   */
  lemma SaveAfterLoad(m: Manager, source: seq<Entity>)
    requires m.store.mutable && m.fileSet && m.containerFieldFound
    ensures var saved := Save(m.(store := Load(m.store, source)));
      && ((m.store.changed || exists i :: 0 <= i < |source| && source[i].changed) ==>
            && saved.Written?
            && |saved.payload| == |source|
            && forall i :: 0 <= i < |source| ==> saved.payload[i] == source[i].builder)
      && (!m.store.changed && (forall i :: 0 <= i < |source| ==> !source[i].changed) ==> saved == NotSaved)
  {
    var l := Load(m.store, source);
    var loaded := m.(store := l);
    assert forall i :: 0 <= i < |source| ==> l.entries[i].value == source[i] by {
      forall i | 0 <= i < |source|
        ensures l.entries[i].value == source[i]
      {
        assert Values(l.entries)[i] == source[i];
      }
    }
    if m.store.changed || exists i :: 0 <= i < |source| && source[i].changed {
      assert Changed(l) by {
        if !m.store.changed {
          var i :| 0 <= i < |source| && source[i].changed;
          assert l.entries[i].value.changed;
        }
      }
      assert Save(loaded) == Written(Builders(l.entries));
      assert forall i :: 0 <= i < |source| ==> Builders(l.entries)[i] == source[i].builder;
    } else {
      assert !Changed(l);
    }
  }

  // ---------------------------------------------------------------------------
  // Interplay with WorldManager

  /**
   * While a synchronous world save is in flight, IsWorldSaving is true and no
   * manager dispatches a refresh; once InternalSaveWorld has run, the flag no
   * longer stands in the way.
   */
  lemma SyncSaveSuspendsRefresh(m: Manager, sh: Shared, w: WorldSave.World, invoke: WorldSave.InvokeOutcome,
                                call: WorldSave.HostSaveCall, gameStarted: bool, lock: Option<SaveLock>, nowMs: int,
                                enqueue: EnqueueOutcome)
    requires !w.isSaving
    ensures var saving := WorldSave.SaveWorld(w, invoke);
      var r := Refresh(m, sh, HostView(gameStarted, saving.isSaving, lock), nowMs, enqueue);
      !r.dispatched && !r.raised
    ensures var done := WorldSave.InternalSaveWorld(WorldSave.SaveWorld(w, WorldSave.Invoked), call);
      Refresh(m, sh, HostView(gameStarted, done.isSaving, lock), nowMs, enqueue) ==
      Refresh(m, sh, HostView(gameStarted, false, lock), nowMs, enqueue)
  {
  }

  /**
   * When SaveWorld's marshalling call throws, IsWorldSaving stays true through
   * any later save requests, so no manager dispatches a refresh again.
   */
  lemma FailedInvokeStopsRefresh(m: Manager, sh: Shared, w: WorldSave.World, reqs: seq<WorldSave.SaveRequest>,
                                 gameStarted: bool, lock: Option<SaveLock>, nowMs: int, enqueue: EnqueueOutcome)
    requires !w.isSaving
    ensures var later := WorldSave.ApplyRequests(WorldSave.SaveWorld(w, WorldSave.InvokeThrew), reqs);
      var r := Refresh(m, sh, HostView(gameStarted, later.isSaving, lock), nowMs, enqueue);
      !r.dispatched && !r.raised
  {
  }

  /** When the reflective lookup of the host save lock throws, CanRefresh is false and no refresh is dispatched. */
  lemma LockLookupFailureBlocksRefresh(m: Manager, sh: Shared, e: WorldSave.LookupError,
                                       gameStarted: bool, worldSaving: bool, nowMs: int, enqueue: EnqueueOutcome)
    ensures var r := Refresh(m, sh, HostView(gameStarted, worldSaving, WorldSave.InternalGetResourceLock(Failure(e))), nowMs, enqueue);
      !r.dispatched && !r.raised
  {
  }
}

=== FILE: refresh_scheduler.dfy ===
/**
 * The refresh gate and the adaptive refresh interval of BaseObjectManager:
 * CanRefresh, the time gate of Refresh, and the process-wide refresh counters
 * (m_staticRefreshCount and m_staticRefreshCountMap) that set m_refreshInterval.
 */
module RefreshScheduler {
  import opened Wrappers
  import opened Host
  import opened Sequences

  /** The concrete manager class (this.GetType()) that keys the per-type counter. */
  type TypeId = nat

  /** m_refreshInterval of a freshly constructed manager. */
  const InitialIntervalMs := 250
  /** The two constants of the interval formula. */
  const IntervalBaseMs := 250
  const IntervalSpanMs := 850
  /** The interval a class earns when it alone has been refreshing. */
  const MaxIntervalMs := IntervalBaseMs + IntervalSpanMs

  /**
   * Ownership of the manager's own locks: the main lock over the keyed
   * collection and the three staging-container locks.
   */
  datatype Locks = Locks(main: bool, hashSet: bool, list: bool, builderMap: bool)

  const Unlocked := Locks(false, false, false, false)

  /** IsInternalResourceLocked. */
  predicate StagingLocked(l: Locks)
  {
    l.hashSet || l.list || l.builderMap
  }

  /**
   * What CanRefresh reads outside the manager: whether the game has started,
   * WorldManager's IsWorldSaving, and the host save lock (None when the lookup
   * yields null).
   */
  datatype HostView = HostView(gameStarted: bool, worldSaving: bool, saveLock: Option<SaveLock>)

  /** CanRefresh: the eight early returns, in source order. */
  function CanRefresh(dynamic: bool, mutable: bool, locks: Locks, host: HostView): (r: bool)
    ensures r <==>
      && dynamic
      && mutable
      && !locks.main
      && !StagingLocked(locks)
      && host.gameStarted
      && !host.worldSaving
      && host.saveLock.Some?
      && !host.saveLock.value.owned
  {
    if !dynamic then false
    else if !mutable then false
    else if locks.main then false
    else if StagingLocked(locks) then false
    else if !host.gameStarted then false
    else if host.worldSaving then false
    else if host.saveLock.None? then false
    else if host.saveLock.value.owned then false
    else true
  }

  // ---------------------------------------------------------------------------
  // Refresh counters

  /** m_staticRefreshCount and m_staticRefreshCountMap, shared by every manager. */
  datatype RefreshStats = RefreshStats(total: nat, perType: map<TypeId, nat>)

  const NoRefreshes := RefreshStats(0, map[])

  /** The per-type count, zero for a class that has never dispatched. */
  function TypeCount(st: RefreshStats, t: TypeId): nat
  {
    if t in st.perType then st.perType[t] else 0
  }

  /** The counter update of one dispatch: ContainsKey ? ++ : Add(type, 1), then the global ++. */
  function RecordDispatch(st: RefreshStats, t: TypeId): (r: RefreshStats)
    ensures r.total == st.total + 1
    ensures TypeCount(r, t) == TypeCount(st, t) + 1
    ensures forall u :: u != t ==> TypeCount(r, u) == TypeCount(st, u)
  {
    var perType := if t !in st.perType then st.perType[t := 1] else st.perType[t := st.perType[t] + 1];
    RefreshStats(st.total + 1, perType)
  }

  /** How many times `t` occurs in a history of dispatches. */
  function Occurrences(h: seq<TypeId>, t: TypeId): nat
  {
    if |h| == 0 then 0 else Occurrences(Init(h), t) + (if Last(h) == t then 1 else 0)
  }

  /** The counters agree with the history of dispatches `h`, oldest first. */
  ghost predicate Tracks(st: RefreshStats, h: seq<TypeId>)
  {
    st.total == |h| && forall t :: TypeCount(st, t) == Occurrences(h, t)
  }

  lemma NoRefreshesTracksEmptyHistory()
    ensures Tracks(NoRefreshes, [])
  {
  }

  /** Every dispatch keeps the counters in step with the history. */
  lemma RecordDispatchTracks(st: RefreshStats, h: seq<TypeId>, t: TypeId)
    requires Tracks(st, h)
    ensures Tracks(RecordDispatch(st, t), h + [t])
  {
    assert Init(h + [t]) == h;
  }

  lemma {:induction false} OccurrencesAtMostLength(h: seq<TypeId>, t: TypeId)
    ensures Occurrences(h, t) <= |h|
    ensures Occurrences(h, t) == |h| <==> forall i :: 0 <= i < |h| ==> h[i] == t
  {
    if |h| > 0 {
      OccurrencesAtMostLength(Init(h), t);
      if Last(h) == t {
        assert forall i :: 0 <= i < |h| - 1 ==> h[i] == Init(h)[i];
      } else {
        assert h[|h| - 1] != t;
      }
    }
  }

  /** A class's count never exceeds the global count. */
  lemma TypeCountAtMostTotal(st: RefreshStats, h: seq<TypeId>, t: TypeId)
    requires Tracks(st, h)
    ensures TypeCount(st, t) <= st.total
    ensures TypeCount(st, t) == st.total <==> forall i :: 0 <= i < |h| ==> h[i] == t
  {
    OccurrencesAtMostLength(h, t);
  }

  /** Sum of the counts of the classes in `types`. */
  function SumCounts(st: RefreshStats, types: seq<TypeId>): nat
  {
    if |types| == 0 then 0 else TypeCount(st, types[0]) + SumCounts(st, types[1..])
  }

  function SumOccurrences(h: seq<TypeId>, types: seq<TypeId>): nat
  {
    if |types| == 0 then 0 else Occurrences(h, types[0]) + SumOccurrences(h, types[1..])
  }

  lemma {:induction false} SumCountsIsSumOccurrences(st: RefreshStats, h: seq<TypeId>, types: seq<TypeId>)
    requires Tracks(st, h)
    ensures SumCounts(st, types) == SumOccurrences(h, types)
  {
    if |types| > 0 {
      SumCountsIsSumOccurrences(st, h, types[1..]);
    }
  }

  lemma {:induction false} SumOccurrencesSnoc(h: seq<TypeId>, types: seq<TypeId>, x: TypeId)
    requires forall i, j :: 0 <= i < j < |types| ==> types[i] != types[j]
    ensures SumOccurrences(h + [x], types) == SumOccurrences(h, types) + (if x in types then 1 else 0)
  {
    assert Init(h + [x]) == h;
    if |types| > 0 {
      SumOccurrencesSnoc(h, types[1..], x);
      assert x in types <==> x == types[0] || x in types[1..] by {
        assert types == [types[0]] + types[1..];
      }
      if x == types[0] {
        assert x !in types[1..];
      }
    }
  }

  lemma {:induction false} SumOccurrencesCoversHistory(h: seq<TypeId>, types: seq<TypeId>)
    requires forall i, j :: 0 <= i < j < |types| ==> types[i] != types[j]
    requires forall i :: 0 <= i < |h| ==> h[i] in types
    ensures SumOccurrences(h, types) == |h|
  {
    if |h| == 0 {
      SumOccurrencesOfEmpty(types);
    } else {
      SumOccurrencesCoversHistory(Init(h), types);
      assert Init(h) + [Last(h)] == h;
      SumOccurrencesSnoc(Init(h), types, Last(h));
    }
  }

  lemma {:induction false} SumOccurrencesOfEmpty(types: seq<TypeId>)
    ensures SumOccurrences([], types) == 0
  {
    if |types| > 0 {
      SumOccurrencesOfEmpty(types[1..]);
    }
  }

  /**
   * The per-type counts of all classes that ever dispatched add up to the
   * global count.
   */
  lemma PerTypeCountsSumToTotal(st: RefreshStats, h: seq<TypeId>, types: seq<TypeId>)
    requires Tracks(st, h)
    requires forall i, j :: 0 <= i < j < |types| ==> types[i] != types[j]
    requires forall i :: 0 <= i < |h| ==> h[i] in types
    ensures SumCounts(st, types) == st.total
  {
    SumCountsIsSumOccurrences(st, h, types);
    SumOccurrencesCoversHistory(h, types);
  }

  // ---------------------------------------------------------------------------
  // Adaptive interval

  /**
   * `(typeRefreshCount / m_staticRefreshCount) * 850 + 250` in C# `int`
   * arithmetic; both operands are non-negative, so truncating division agrees
   * with Dafny's.
   */
  function NextInterval(typeCount: nat, total: nat): (r: int)
    requires total > 0
    ensures r >= IntervalBaseMs
    ensures typeCount == total ==> r == MaxIntervalMs
    ensures typeCount < total ==> r == IntervalBaseMs
  {
    (typeCount / total) * IntervalSpanMs + IntervalBaseMs
  }

  /** A manager's m_lastLoadTime and m_refreshInterval, in milliseconds. */
  datatype Schedule = Schedule(lastLoadTimeMs: int, intervalMs: int)

  /** The time gate of Refresh: it proceeds unless fewer than m_refreshInterval ms have passed. */
  predicate TimeGateOpen(sched: Schedule, nowMs: int)
  {
    !(nowMs - sched.lastLoadTimeMs < sched.intervalMs)
  }

  datatype Dispatched = Dispatched(schedule: Schedule, stats: RefreshStats)

  /**
   * The bookkeeping of a dispatched refresh: the load time is stamped, both
   * counters grow by one and the interval is recomputed.
   */
  function Dispatch(sched: Schedule, st: RefreshStats, t: TypeId, nowMs: int): (r: Dispatched)
    ensures r.schedule.lastLoadTimeMs == nowMs
    ensures r.stats == RecordDispatch(st, t)
    ensures r.schedule.intervalMs >= IntervalBaseMs
    ensures TypeCount(st, t) <= st.total ==>
      && (r.schedule.intervalMs == MaxIntervalMs <==> TypeCount(st, t) == st.total)
      && (r.schedule.intervalMs == IntervalBaseMs <==> TypeCount(st, t) < st.total)
  {
    var st' := RecordDispatch(st, t);
    Dispatched(Schedule(nowMs, NextInterval(TypeCount(st', t), st'.total)), st')
  }

  /**
   * With counters that follow a history, the new interval lies in [IntervalBaseMs, MaxIntervalMs],
   * and it is MaxIntervalMs exactly when every refresh dispatched so far, this one
   * included, came from this class.
   */
  lemma DispatchInterval(sched: Schedule, st: RefreshStats, h: seq<TypeId>, t: TypeId, nowMs: int)
    requires Tracks(st, h)
    ensures var r := Dispatch(sched, st, t, nowMs);
      && IntervalBaseMs <= r.schedule.intervalMs <= MaxIntervalMs
      && (r.schedule.intervalMs == MaxIntervalMs <==> forall i :: 0 <= i < |h| ==> h[i] == t)
      && Tracks(r.stats, h + [t])
  {
    TypeCountAtMostTotal(st, h, t);
    RecordDispatchTracks(st, h, t);
  }

  /**
   * Once any other class has dispatched a refresh, every later dispatch of
   * this class sets the interval to 250: integer division makes the
   * proportional back-off collapse.
   */
  lemma IntervalSettlesAtBase(sched: Schedule, st: RefreshStats, h: seq<TypeId>, t: TypeId, u: TypeId, nowMs: int)
    requires Tracks(st, h)
    requires u != t && u in h
    ensures Dispatch(sched, st, t, nowMs).schedule.intervalMs == IntervalBaseMs
  {
    TypeCountAtMostTotal(st, h, t);
    var i :| 0 <= i < |h| && h[i] == u;
  }
}

=== FILE: sequences.dfy ===
/** Small sequence helpers shared by the store and the staging containers. */
module Sequences {

  function Last<T>(s: seq<T>): T
    requires |s| > 0
  {
    s[|s| - 1]
  }

  function Init<T>(s: seq<T>): seq<T>
    requires |s| > 0
  {
    s[..|s| - 1]
  }

  /** The elements of `s` that satisfy `p`, in their original order. */
  function Filter<T(!new)>(s: seq<T>, p: T -> bool): (r: seq<T>)
    ensures |r| <= |s|
    ensures forall x :: x in r <==> x in s && p(x)
  {
    if |s| == 0 then []
    else
      assert s == Init(s) + [Last(s)];
      var rest := Filter(Init(s), p);
      if p(Last(s)) then rest + [Last(s)] else rest
  }

  /** Filtering distributes over concatenation: it never reorders. */
  lemma {:induction false} FilterAppend<T(!new)>(a: seq<T>, b: seq<T>, p: T -> bool)
    ensures Filter(a + b, p) == Filter(a, p) + Filter(b, p)
    decreases |b|
  {
    if |b| == 0 {
      assert a + b == a;
    } else {
      assert Init(a + b) == a + Init(b);
      assert Last(a + b) == Last(b);
      FilterAppend(a, Init(b), p);
    }
  }

  /** A filter that every element passes keeps the whole sequence. */
  lemma {:induction false} FilterKeepsAll<T(!new)>(s: seq<T>, p: T -> bool)
    requires forall i :: 0 <= i < |s| ==> p(s[i])
    ensures Filter(s, p) == s
  {
    if |s| > 0 {
      FilterKeepsAll(Init(s), p);
      assert p(s[|s| - 1]);
      assert Init(s) + [Last(s)] == s;
    }
  }
}

=== FILE: staging.dfy ===
/**
 * The raw staging containers of BaseObjectManager and the passes that refill
 * them from the host: InternalRefreshBackingDataHashSet and
 * InternalRefreshBackingDataList.
 *
 * Each pass comes twice. `RefreshHashSet` / `RefreshList` release the
 * container's exclusive lock on every exit. The `AsWritten` variants also
 * report whether the lock is still held when the pass returns: the source
 * returns from inside its `try` after AcquireExclusive when the backing object
 * or the fetched value is null, and only its `catch` releases the lock.
 */
module Staging {
  import opened Sequences

  /** A raw host object, known only by identity (object equality in HashSet<object>). */
  datatype Raw = Raw(handle: nat)

  /** What invoking the backing method on the backing object yields. */
  datatype RawFetch =
    | NullValue               // the method returned null
    | InvokeFailed            // the call threw; the catch releases the lock
    | Items(items: seq<Raw>)  // the collection, in its enumeration order

  /** HashSet.Add of every admitted item, in enumeration order, into `into`. */
  function AddAdmitted(into: set<Raw>, items: seq<Raw>, valid: Raw -> bool): (r: set<Raw>)
    ensures forall x :: x in r <==> x in into || (x in items && valid(x))
  {
    if |items| == 0 then into
    else
      assert items == Init(items) + [Last(items)];
      var c := AddAdmitted(into, Init(items), valid);
      if valid(Last(items)) then c + {Last(items)} else c
  }

  /**
   * The hash-set pass: when the pass may run and the backing object and raw
   * value are present, the container becomes exactly the admitted raw items;
   * otherwise it is left as it was.
   */
  function RefreshHashSet(canRefresh: bool, hasBackingObject: bool, fetch: RawFetch,
                          valid: Raw -> bool, container: set<Raw>): (r: set<Raw>)
    ensures !(canRefresh && hasBackingObject && fetch.Items?) ==> r == container
    ensures canRefresh && hasBackingObject && fetch.Items? ==>
      forall x :: x in r <==> x in fetch.items && valid(x)
  {
    if !canRefresh || !hasBackingObject then container
    else
      match fetch
      case Items(items) => AddAdmitted({}, items, valid)
      case _ => container
  }

  /**
   * The list pass: the container becomes the admitted raw items in their
   * enumeration order, under the same conditions as the hash-set pass.
   */
  function RefreshList(canRefresh: bool, hasBackingObject: bool, fetch: RawFetch,
                       valid: Raw -> bool, container: seq<Raw>): (r: seq<Raw>)
    ensures !(canRefresh && hasBackingObject && fetch.Items?) ==> r == container
    ensures canRefresh && hasBackingObject && fetch.Items? ==>
      && (forall x :: x in r <==> x in fetch.items && valid(x))
      && |r| <= |fetch.items|
  {
    if !canRefresh || !hasBackingObject then container
    else
      match fetch
      case Items(items) => Filter(items, valid)
      case _ => container
  }

  /** Admission keeps enumeration order: the list pass over `a + b` is the pass over `a` followed by the pass over `b`. */
  lemma RefreshListKeepsOrder(a: seq<Raw>, b: seq<Raw>, valid: Raw -> bool, container: seq<Raw>)
    ensures RefreshList(true, true, Items(a + b), valid, container)
      == RefreshList(true, true, Items(a), valid, container) + RefreshList(true, true, Items(b), valid, container)
  {
    FilterAppend(a, b, valid);
  }

  /** With the default IsValidEntity, which admits everything, the list pass copies the raw collection. */
  lemma RefreshListAdmittingAll(items: seq<Raw>, container: seq<Raw>)
    ensures RefreshList(true, true, Items(items), _ => true, container) == items
  {
    FilterKeepsAll(items, _ => true);
  }

  /** A staging pass as written: the container and whether its lock is still held on return. */
  datatype StagedSet = StagedSet(container: set<Raw>, lockHeld: bool)
  datatype StagedList = StagedList(container: seq<Raw>, lockHeld: bool)

  /** Whether a pass as written returns with the container's exclusive lock still held. */
  predicate LeaksLock(canRefresh: bool, hasBackingObject: bool, fetch: RawFetch)
  {
    canRefresh && (!hasBackingObject || fetch.NullValue?)
  }

  /**
   * InternalRefreshBackingDataHashSet as written: the container agrees with
   * the corrected pass, but the lock stays held after the null returns.
   */
  function RefreshHashSetAsWritten(canRefresh: bool, hasBackingObject: bool, fetch: RawFetch,
                                   valid: Raw -> bool, container: set<Raw>): (r: StagedSet)
    ensures r.container == RefreshHashSet(canRefresh, hasBackingObject, fetch, valid, container)
    ensures r.lockHeld <==> LeaksLock(canRefresh, hasBackingObject, fetch)
  {
    if !canRefresh then StagedSet(container, false)
    else if !hasBackingObject then StagedSet(container, true)
    else
      match fetch
      case NullValue => StagedSet(container, true)
      case InvokeFailed => StagedSet(container, false)
      case Items(items) => StagedSet(AddAdmitted({}, items, valid), false)
  }

  /** InternalRefreshBackingDataList as written, with the same early returns. */
  function RefreshListAsWritten(canRefresh: bool, hasBackingObject: bool, fetch: RawFetch,
                                valid: Raw -> bool, container: seq<Raw>): (r: StagedList)
    ensures r.container == RefreshList(canRefresh, hasBackingObject, fetch, valid, container)
    ensures r.lockHeld <==> LeaksLock(canRefresh, hasBackingObject, fetch)
  {
    if !canRefresh then StagedList(container, false)
    else if !hasBackingObject then StagedList(container, true)
    else
      match fetch
      case NullValue => StagedList(container, true)
      case InvokeFailed => StagedList(container, false)
      case Items(items) => StagedList(Filter(items, valid), false)
  }
}

=== FILE: world_save.dfy ===
/**
 * The world-save side of WorldManager: the m_isSaving single-flight flag
 * across SaveWorld, AsynchronousSaveWorld and InternalSaveWorld, the save-lock
 * lookup, the WorldSaved event, and the asynchronous save task's two-phase poll
 * of the host save lock, modelled over a finite trace of `(time, Owned)` reads.
 */
module WorldSave {
  import opened Wrappers
  import opened Host

  /** A handler registered on the WorldSaved event. */
  type ListenerId = nat

  /** Observable effects of a save, in the order they happen. */
  datatype Effect =
    | ListenerNotified(listener: ListenerId)   // one WorldSaved handler ran
    | SectorSaved                               // an OnSectorSaved entity event was added

  /**
   * The WorldManager singleton as far as saving is concerned: the flag, the
   * WorldSaved handlers in registration order, the work marshalled to the main
   * thread, the number of asynchronous save tasks started, and the effects so far.
   */
  datatype World = World(
    isSaving: bool,
    listeners: seq<ListenerId>,
    queue: seq<GameAction>,
    tasksStarted: nat,
    effects: seq<Effect>)

  // ---------------------------------------------------------------------------
  // Save-lock lookup

  /** Ways the reflective lookup of MySessionSnapshot.m_savingLock can fail. */
  datatype LookupError = TypeNotFound | FieldNotFound | NotALock

  /**
   * InternalGetResourceLock: the lock when the lookup succeeds (the field
   * itself may hold null), and null whenever the lookup throws.
   */
  function InternalGetResourceLock(lookup: Result<Option<SaveLock>, LookupError>): (r: Option<SaveLock>)
    ensures lookup.Failure? ==> r.None?
    ensures r.Some? <==> lookup.Success? && lookup.value.Some?
    ensures r.Some? ==> lookup.value == r
  {
    match lookup
    case Failure(_) => None
    case Success(lock) => lock
  }

  // ---------------------------------------------------------------------------
  // WorldSaved event

  /** One notification per registered handler, in registration order. */
  function Notifications(listeners: seq<ListenerId>): (r: seq<Effect>)
    ensures |r| == |listeners|
    ensures forall i :: 0 <= i < |listeners| ==> r[i] == ListenerNotified(listeners[i])
  {
    seq(|listeners|, i requires 0 <= i < |listeners| => ListenerNotified(listeners[i]))
  }

  /**
   * OnWorldSaved: raises WorldSaved only when a handler is registered; with
   * none it has no effect. Nothing but the effects changes.
   */
  function OnWorldSaved(w: World): (r: World)
    ensures |w.listeners| == 0 ==> r == w
    ensures r == w.(effects := r.effects)
    ensures |r.effects| == |w.effects| + |w.listeners|
    ensures r.effects[..|w.effects|] == w.effects
    ensures forall i :: 0 <= i < |w.listeners| ==> r.effects[|w.effects| + i] == ListenerNotified(w.listeners[i])
  {
    if |w.listeners| == 0 then w
    else w.(effects := w.effects + Notifications(w.listeners))
  }

  // ---------------------------------------------------------------------------
  // The single-flight flag

  /**
   * How MySandboxGame.Static.Invoke ends: the closure is queued on the main
   * thread, or the call throws (for instance when the game object is not yet
   * there), and the exception leaves SaveWorld.
   */
  datatype InvokeOutcome = Invoked | InvokeThrew

  /**
   * SaveWorld: dropped while a save is in flight; otherwise sets the flag and
   * marshals exactly one InternalSaveWorld onto the main thread. The flag is
   * set before the marshalling call and nothing resets it if that call throws.
   */
  function SaveWorld(w: World, invoke: InvokeOutcome): (r: World)
    ensures w.isSaving ==> r == w
    ensures !w.isSaving ==> r.isSaving
    ensures !w.isSaving && invoke == Invoked ==>
      && r.queue == w.queue + [InternalSaveWorldAction]
      && r == w.(isSaving := true, queue := r.queue)
    ensures !w.isSaving && invoke == InvokeThrew ==> r == w.(isSaving := true)
  {
    if w.isSaving then w
    else
      var flagged := w.(isSaving := true);
      match invoke
      case Invoked => flagged.(queue := w.queue + [InternalSaveWorldAction])
      case InvokeThrew => flagged
  }

  /**
   * AsynchronousSaveWorld: dropped while a save is in flight; otherwise starts
   * one polling task and, through its `finally`, clears the flag before
   * returning, long before the save itself completes.
   */
  function AsynchronousSaveWorld(w: World): (r: World)
    ensures !r.isSaving || w.isSaving
    ensures w.isSaving ==> r == w
    ensures !w.isSaving ==> r == w.(tasksStarted := w.tasksStarted + 1)
  {
    if w.isSaving then w
    else
      var started := w.(isSaving := true, tasksStarted := w.tasksStarted + 1);
      started.(isSaving := false)
  }

  /** How the host's synchronous MySession.Save call ends. */
  datatype HostSaveCall =
    | SaveThrew               // any exception, a null BackingObject included
    | SaveReturned(ok: bool)

  /**
   * InternalSaveWorld: the flag is clear on every exit; a successful save adds
   * the sector-saved event and then raises WorldSaved, a failed one raises
   * only WorldSaved, and an exception raises nothing.
   */
  function InternalSaveWorld(w: World, call: HostSaveCall): (r: World)
    ensures !r.isSaving
    ensures r == w.(isSaving := false, effects := r.effects)
    ensures call == SaveReturned(true) ==>
      r.effects == w.effects + [SectorSaved] + Notifications(w.listeners)
    ensures call == SaveReturned(false) ==> r.effects == w.effects + Notifications(w.listeners)
    ensures call == SaveThrew ==> r.effects == w.effects
  {
    match call
    case SaveThrew => w.(isSaving := false)
    case SaveReturned(ok) =>
      var afterEvent := if ok then w.(isSaving := false, effects := w.effects + [SectorSaved]) else w;
      OnWorldSaved(afterEvent).(isSaving := false)
  }

  /** A second SaveWorld while the first is in flight changes nothing: at most one save is ever queued. */
  lemma SaveWorldIsSingleFlight(w: World, first: InvokeOutcome, second: InvokeOutcome)
    ensures SaveWorld(SaveWorld(w, first), second) == SaveWorld(w, first)
    ensures !w.isSaving ==> |SaveWorld(SaveWorld(w, first), second).queue| <= |w.queue| + 1
  {
  }

  /** Once InternalSaveWorld has run, whatever its outcome, the next SaveWorld is accepted. */
  lemma SaveWorldAcceptedAfterInternalSave(w: World, call: HostSaveCall)
    ensures SaveWorld(InternalSaveWorld(w, call), Invoked).isSaving
    ensures SaveWorld(InternalSaveWorld(w, call), Invoked).queue == InternalSaveWorld(w, call).queue + [InternalSaveWorldAction]
  {
  }

  /** A request to save the world arriving from the game: SaveWorld or AsynchronousSaveWorld. */
  datatype SaveRequest = SyncSave(invoke: InvokeOutcome) | AsyncSave

  /** The world after a run of save requests, none of which lets the main thread run InternalSaveWorld. */
  function ApplyRequests(w: World, reqs: seq<SaveRequest>): (r: World)
    ensures |r.queue| >= |w.queue|
    ensures w.isSaving ==> r.isSaving
    decreases |reqs|
  {
    if |reqs| == 0 then w
    else
      var next := match reqs[0]
        case SyncSave(invoke) => SaveWorld(w, invoke)
        case AsyncSave => AsynchronousSaveWorld(w);
      ApplyRequests(next, reqs[1..])
  }

  /**
   * When the marshalling call throws, the flag stays set with no
   * InternalSaveWorld queued to clear it: every later SaveWorld and
   * AsynchronousSaveWorld is dropped.
   */
  lemma FailedInvokeLeavesFlagSet(w: World, next: InvokeOutcome)
    requires !w.isSaving
    ensures var stuck := SaveWorld(w, InvokeThrew);
      && stuck.isSaving
      && InternalSaveWorldAction !in stuck.queue[|w.queue|..]
      && SaveWorld(stuck, next) == stuck
      && AsynchronousSaveWorld(stuck) == stuck
  {
  }

  /** After a failed marshalling call no run of save requests changes the world again. */
  lemma {:induction false} FailedInvokeDropsEveryLaterRequest(w: World, reqs: seq<SaveRequest>)
    requires !w.isSaving
    ensures ApplyRequests(SaveWorld(w, InvokeThrew), reqs) == SaveWorld(w, InvokeThrew)
  {
    StuckWorldIgnoresRequests(SaveWorld(w, InvokeThrew), reqs);
  }

  /** A world whose flag is set with no save queued since ignores every save request. */
  lemma {:induction false} StuckWorldIgnoresRequests(w: World, reqs: seq<SaveRequest>)
    requires w.isSaving
    ensures ApplyRequests(w, reqs) == w
    decreases |reqs|
  {
    if |reqs| > 0 {
      StuckWorldIgnoresRequests(w, reqs[1..]);
    }
  }

  /**
   * The flag does not single-flight asynchronous saves: two calls in a row
   * start two polling tasks.
   */
  lemma AsynchronousSaveWorldTwiceStartsTwoTasks(w: World)
    requires !w.isSaving
    ensures AsynchronousSaveWorld(AsynchronousSaveWorld(w)).tasksStarted == w.tasksStarted + 2
  {
  }

  // ---------------------------------------------------------------------------
  // The asynchronous save task's poll

  /** Bounds of the two phases, both measured from the same `start`. */
  const AcquireTimeoutMs := 20000
  const ReleaseTimeoutMs := 60000

  /** One read of `saveLock.Owned`, with the clock reading taken in the same loop iteration. */
  datatype Sample = Sample(timeMs: int, owned: bool)

  datatype PollOutcome =
    | Completed      // Owned was seen, then seen clear again
    | TimedOut       // a bound was exceeded: the save task returns silently
    | Faulted        // the lock lookup gave null: reading Owned throws inside the save task
    | StillPolling   // the trace ends before either

  /**
   * Phase 1, from read `i` on: wait for the lock to become Owned, giving up at
   * the first clear read taken more than 20000 ms after `start`. The read that
   * sees Owned ends the phase; phase 2 starts with a fresh read.
   */
  function AwaitAcquire(samples: seq<Sample>, start: int, i: nat): PollOutcome
    requires i <= |samples|
    decreases |samples| - i
  {
    if i == |samples| then StillPolling
    else if samples[i].owned then AwaitRelease(samples, start, i + 1)
    else if samples[i].timeMs - start > AcquireTimeoutMs then TimedOut
    else AwaitAcquire(samples, start, i + 1)
  }

  /**
   * Phase 2, from read `j` on: wait for the lock to be released, giving up at
   * the first Owned read taken more than 60000 ms after the same `start`.
   */
  function AwaitRelease(samples: seq<Sample>, start: int, j: nat): PollOutcome
    requires j <= |samples|
    decreases |samples| - j
  {
    if j == |samples| then StillPolling
    else if !samples[j].owned then Completed
    else if samples[j].timeMs - start > ReleaseTimeoutMs then TimedOut
    else AwaitRelease(samples, start, j + 1)
  }

  /** The whole poll, given the lock handle looked up once before it starts. */
  function Poll(lock: Option<SaveLock>, samples: seq<Sample>, start: int): PollOutcome
  {
    if lock.None? then Faulted else AwaitAcquire(samples, start, 0)
  }

  // Independent, declarative description of the poll.

  /** Read `a` is the first Owned read at or after `i`, and every earlier one came within the first bound. */
  ghost predicate AcquiredFrom(s: seq<Sample>, start: int, i: int, a: int)
  {
    0 <= i <= a < |s| && s[a].owned
    && forall m :: i <= m < a ==> !s[m].owned && s[m].timeMs - start <= AcquireTimeoutMs
  }

  /** Read `k` is the first clear read at or after `j`, and every earlier one came within the second bound. */
  ghost predicate ReleasedFrom(s: seq<Sample>, start: int, j: int, k: int)
  {
    0 <= j <= k < |s| && !s[k].owned
    && forall m :: j <= m < k ==> s[m].owned && s[m].timeMs - start <= ReleaseTimeoutMs
  }

  /** Read `k` is a clear read past the first bound, with no Owned read and no overrun before it. */
  ghost predicate AcquireExpiredFrom(s: seq<Sample>, start: int, i: int, k: int)
  {
    0 <= i <= k < |s| && !s[k].owned && s[k].timeMs - start > AcquireTimeoutMs
    && forall m :: i <= m < k ==> !s[m].owned && s[m].timeMs - start <= AcquireTimeoutMs
  }

  /** Read `k` is an Owned read past the second bound, with no clear read and no overrun before it. */
  ghost predicate ReleaseExpiredFrom(s: seq<Sample>, start: int, j: int, k: int)
  {
    0 <= j <= k < |s| && s[k].owned && s[k].timeMs - start > ReleaseTimeoutMs
    && forall m :: j <= m < k ==> s[m].owned && s[m].timeMs - start <= ReleaseTimeoutMs
  }

  /** The lock is first seen Owned at read `a` and first seen clear again at read `k`. */
  ghost predicate CompletesVia(s: seq<Sample>, start: int, i: int, a: int, k: int)
  {
    AcquiredFrom(s, start, i, a) && ReleasedFrom(s, start, a + 1, k)
  }

  /** The lock is first seen Owned at read `a` and still held past the second bound at read `k`. */
  ghost predicate HeldTooLongVia(s: seq<Sample>, start: int, i: int, a: int, k: int)
  {
    AcquiredFrom(s, start, i, a) && ReleaseExpiredFrom(s, start, a + 1, k)
  }

  ghost predicate Completes(s: seq<Sample>, start: int)
  {
    exists a, k :: CompletesVia(s, start, 0, a, k)
  }

  ghost predicate TimesOut(s: seq<Sample>, start: int)
  {
    || (exists k :: AcquireExpiredFrom(s, start, 0, k))
    || (exists a, k :: HeldTooLongVia(s, start, 0, a, k))
  }

  /** The release phase from read `j` completes or times out exactly as the declarative description says. */
  lemma {:induction false} AwaitReleaseMeaning(s: seq<Sample>, start: int, j: nat)
    requires j <= |s|
    ensures AwaitRelease(s, start, j) == Completed <==> exists k :: ReleasedFrom(s, start, j, k)
    ensures AwaitRelease(s, start, j) == TimedOut <==> exists k :: ReleaseExpiredFrom(s, start, j, k)
    ensures AwaitRelease(s, start, j) != Faulted
    decreases |s| - j
  {
    if j == |s| {
    } else if !s[j].owned {
      assert ReleasedFrom(s, start, j, j);
      forall k
        ensures !ReleaseExpiredFrom(s, start, j, k)
      {
        if k > j { assert !s[j].owned; }
      }
    } else if s[j].timeMs - start > ReleaseTimeoutMs {
      assert ReleaseExpiredFrom(s, start, j, j);
      forall k
        ensures !ReleasedFrom(s, start, j, k)
      {
        if k > j { assert s[j].timeMs - start > ReleaseTimeoutMs; }
      }
    } else {
      // Read `j` is Owned and within the bound: it neither ends nor spoils the phase.
      var n := j + 1;
      AwaitReleaseMeaning(s, start, n);
      forall k
        ensures ReleasedFrom(s, start, j, k) <==> ReleasedFrom(s, start, n, k)
        ensures ReleaseExpiredFrom(s, start, j, k) <==> ReleaseExpiredFrom(s, start, n, k)
      {
      }
      if exists k :: ReleasedFrom(s, start, n, k) {
        var k :| ReleasedFrom(s, start, n, k);
        assert ReleasedFrom(s, start, j, k);
      }
      if exists k :: ReleaseExpiredFrom(s, start, n, k) {
        var k :| ReleaseExpiredFrom(s, start, n, k);
        assert ReleaseExpiredFrom(s, start, j, k);
      }
    }
  }

  /** The acquire phase from read `i` completes or times out exactly as the declarative description says. */
  lemma {:induction false} AwaitAcquireMeaning(s: seq<Sample>, start: int, i: nat)
    requires i <= |s|
    ensures AwaitAcquire(s, start, i) == Completed <==> exists a, k :: CompletesVia(s, start, i, a, k)
    ensures AwaitAcquire(s, start, i) == TimedOut <==>
      || (exists k :: AcquireExpiredFrom(s, start, i, k))
      || (exists a, k :: HeldTooLongVia(s, start, i, a, k))
    decreases |s| - i
  {
    if i == |s| {
    } else if s[i].owned {
      // Read `i` acquires, so the outcome is the release phase's from `i + 1`.
      var n := i + 1;
      AwaitReleaseMeaning(s, start, n);
      assert AcquiredFrom(s, start, i, i);
      forall a, k
        ensures CompletesVia(s, start, i, a, k) <==> a == i && ReleasedFrom(s, start, n, k)
        ensures HeldTooLongVia(s, start, i, a, k) <==> a == i && ReleaseExpiredFrom(s, start, n, k)
      {
        if a > i { assert s[i].owned; }
      }
      if exists k :: ReleasedFrom(s, start, n, k) {
        var k :| ReleasedFrom(s, start, n, k);
        assert CompletesVia(s, start, i, i, k);
      }
      if exists k :: ReleaseExpiredFrom(s, start, n, k) {
        var k :| ReleaseExpiredFrom(s, start, n, k);
        assert HeldTooLongVia(s, start, i, i, k);
      }
      forall k
        ensures !AcquireExpiredFrom(s, start, i, k)
      {
        if k > i { assert s[i].owned; }
      }
    } else if s[i].timeMs - start > AcquireTimeoutMs {
      assert AcquireExpiredFrom(s, start, i, i);
      forall a
        ensures !AcquiredFrom(s, start, i, a)
      {
        if a > i { assert s[i].timeMs - start > AcquireTimeoutMs; }
      }
    } else {
      // Read `i` is clear and within the bound, so the phase goes on from `i + 1`.
      var n := i + 1;
      AwaitAcquireMeaning(s, start, n);
      forall a, k
        ensures CompletesVia(s, start, i, a, k) <==> CompletesVia(s, start, n, a, k)
        ensures HeldTooLongVia(s, start, i, a, k) <==> HeldTooLongVia(s, start, n, a, k)
      {
      }
      forall k
        ensures AcquireExpiredFrom(s, start, i, k) <==> AcquireExpiredFrom(s, start, n, k)
      {
      }
      if exists a, k :: CompletesVia(s, start, n, a, k) {
        var a, k :| CompletesVia(s, start, n, a, k);
        assert CompletesVia(s, start, i, a, k);
      }
      if exists a, k :: HeldTooLongVia(s, start, n, a, k) {
        var a, k :| HeldTooLongVia(s, start, n, a, k);
        assert HeldTooLongVia(s, start, i, a, k);
      }
      if exists k :: AcquireExpiredFrom(s, start, n, k) {
        var k :| AcquireExpiredFrom(s, start, n, k);
        assert AcquireExpiredFrom(s, start, i, k);
      }
    }
  }

  /**
   * The poll completes exactly when an Owned read arrives before the first
   * bound is overrun and a clear read follows before the second bound is
   * overrun; it times out exactly when one of the two bounds is overrun first.
   */
  lemma PollMeaning(lock: SaveLock, s: seq<Sample>, start: int)
    ensures Poll(Some(lock), s, start) == Completed <==> Completes(s, start)
    ensures Poll(Some(lock), s, start) == TimedOut <==> TimesOut(s, start)
  {
    AwaitAcquireMeaning(s, start, 0);
  }

  /**
   * The asynchronous save task: it marshals MyAsyncSaving.Start onto the main
   * thread, polls, and only on completion raises WorldSaved followed by exactly
   * one sector-saved event. Abandonment leaves the effects untouched, and the
   * task never touches the flag.
   */
  function RunSaveTask(w: World, lock: Option<SaveLock>, samples: seq<Sample>, start: int): (r: World)
    ensures r.isSaving == w.isSaving && r.listeners == w.listeners && r.tasksStarted == w.tasksStarted
    ensures r.queue == w.queue + [AsyncSnapshotStartAction]
    ensures Poll(lock, samples, start) == Completed ==>
      r.effects == w.effects + Notifications(w.listeners) + [SectorSaved]
    ensures Poll(lock, samples, start) != Completed ==> r.effects == w.effects
  {
    var queued := w.(queue := w.queue + [AsyncSnapshotStartAction]);
    if Poll(lock, samples, start) == Completed then
      var saved := OnWorldSaved(queued);
      saved.(effects := saved.effects + [SectorSaved])
    else queued
  }

  /**
   * The save task raises the sector-saved event if and only if its poll completes,
   * then exactly once and after every WorldSaved handler has run.
   */
  lemma RunSaveTaskEmitsOneSectorEvent(w: World, lock: SaveLock, samples: seq<Sample>, start: int)
    ensures var r := RunSaveTask(w, Some(lock), samples, start);
      && (Completes(samples, start) ==>
            && r.effects == w.effects + Notifications(w.listeners) + [SectorSaved]
            && SectorSaved !in Notifications(w.listeners))
      && (!Completes(samples, start) ==> r.effects == w.effects)
  {
    PollMeaning(lock, samples, start);
  }

  /** The scenario of a save whose lock is taken at 5 ms and released at 40 ms. */
  lemma QuickSaveCompletes(lock: SaveLock, start: int)
    ensures Poll(Some(lock), [Sample(start + 1, false), Sample(start + 5, true), Sample(start + 40, false)], start) == Completed
  {
    var s := [Sample(start + 1, false), Sample(start + 5, true), Sample(start + 40, false)];
    assert AwaitRelease(s, start, 2) == Completed;
    assert AwaitAcquire(s, start, 1) == Completed;
  }

  /** The scenario of a save whose lock is never taken: the first clear read past 20000 ms abandons it. */
  lemma UnstartedSaveTimesOut(lock: SaveLock, start: int)
    ensures Poll(Some(lock), [Sample(start + 10, false), Sample(start + 20000, false), Sample(start + 20001, false)], start) == TimedOut
  {
    var s := [Sample(start + 10, false), Sample(start + 20000, false), Sample(start + 20001, false)];
    assert AwaitAcquire(s, start, 2) == TimedOut;
    assert AwaitAcquire(s, start, 1) == TimedOut;
  }

  /**
   * Both bounds run from the same `start`: a lock taken at 19 s and still held
   * at exactly 60 s counts as completed once a clear read follows, while one
   * still held past 60 s from `start` does not, however late it was taken.
   */
  lemma BoundsShareTheStart(lock: SaveLock, start: int)
    ensures Poll(Some(lock), [Sample(start + 19000, true), Sample(start + 60000, true), Sample(start + 60000, false)], start) == Completed
    ensures Poll(Some(lock), [Sample(start + 19000, true), Sample(start + 60001, true), Sample(start + 60002, false)], start) == TimedOut
  {
    var s := [Sample(start + 19000, true), Sample(start + 60000, true), Sample(start + 60000, false)];
    assert AwaitRelease(s, start, 2) == Completed;
    assert AwaitRelease(s, start, 1) == Completed;
    var u := [Sample(start + 19000, true), Sample(start + 60001, true), Sample(start + 60002, false)];
    assert AwaitRelease(u, start, 1) == TimedOut;
  }
}

=== FILE: wrappers.dfy ===
/**
 * Option and Result: the model's stand-ins for a null reference and for an
 * operation that throws.
 */
module Wrappers {

  /** A value that may be missing (a null reference in the host code). */
  datatype Option<+T> = None | Some(value: T)

  /** A result, or the error an operation throws instead of returning. */
  datatype Result<+R, +E> = Success(value: R) | Failure(error: E)
}
